=== FILE: README.md ===
# A model of a toy browser's rendering core

This project models the document-to-paint pipeline of a small Python web
browser, and proves properties of the model. The pipeline has three stages.

- **Tree building** (`htmlparser.py`). The callbacks `handle_starttag`,
  `handle_endtag` and `handle_data` of `lex` build a node tree with a stack
  of open elements. Void tags are never pushed. Any other end tag pops the
  stack whatever its name. Text goes under the top of the stack, or is
  dropped when the stack is empty. The first start tag becomes the root.
- **Stylesheets and styles** (`css.py`). `CSSParser` is an index-based
  scanner: `whitespace`, `word`, `literal`, `pair`, `ignore_until`, `body`,
  `selector` and `parse`. It recovers from a failed assertion by skipping
  forward. `TagSelector` and `DescendentSelector` are matched against
  nodes. `style` applies the matching rules in list order, then the inline
  `style` attribute, then recurses into element children.
- **Layout, painting and display** (`browser.py`). The pieces are:
  - `layout_mode`, which classifies a node as block or inline;
  - block boxes stacked one below the other;
  - greedy line filling in `text`/`flush`;
  - `DocumentLayout`'s page margins;
  - `paint`, which emits the background, then the children, then the
    box's own words;
  - the culling in `draw` and the scroll arithmetic.

The Dafny modules follow these stages:

| module | file | models |
|---|---|---|
| `Wrappers` | wrappers.dfy | `Option` and `Result` (exceptions become `Err`) |
| `Chars` | chars.dfy | `isspace`, `isalnum` and `lower` on ASCII |
| `Dom` | dom.dfy | `Node`/`Element`/`Text`, stored as an arena of indices |
| `HtmlParser` | htmlparser.dfy | `lex`, the tree builder, over a token sequence |
| `Selectors` | selectors.dfy | `TagSelector` and `DescendentSelector` |
| `CssParser` | cssparser.dfy | `CSSParser` |
| `Cascade` | cascade.dfy | `style` |
| `Display` | display.dfy | constants, `DrawText`/`DrawRect`, `draw`, `scrollup`, `scrolldown` |
| `Lines` | lines.dfy | `BlockLayout.text` and `BlockLayout.flush` |
| `Layout` | layout.dfy | `layout_mode`, `BlockLayout.layout`/`recurse`/`paint`, `DocumentLayout` |

Design choices:

- **Nodes.** Nodes live in a sequence and refer to each other by index. A
  parent always precedes its children. `WellFormed` states that parent and
  children links agree.
- **Styles.** The per-node `style` dictionary is a sequence of maps
  parallel to the node arena. `style` returns the new maps rather than
  mutating the nodes.
- **Scanner failures.** Each scanner function returns `Done(value, pos)`,
  or `Raised(pos)` for a failed `assert`. The callers' `except` branches go
  on from the position where the failure happened.
- **Fonts.** `font.measure` and `font.metrics` are fixed functions with
  non-negative results, passed in as a `Measure`.
- **Layout boxes.** A box is a value holding its node, its geometry, its
  child boxes and its own display list.

The code is modelled as written, quirks included. Where a quirk is evidently
unintended, "## Findings" gives both the as-written behaviour and the
corrected one.

## Model

| member | source | states |
|---|---|---|
| `Dom.Ancestors` | css.py:29-32 | The chain that `while node.parent` walks: strict ancestors only, nearest first, each created before the node. It is empty exactly when the node has no parent. |
| `Dom.Attach` | htmlparser.py:72-75 | Appending a node and listing it as its parent's last child keeps every parent/children link consistent. The parent gains exactly the new index. Every other node is unchanged. |
| `HtmlParser.AttrMap` | htmlparser.py:28-30 | Every attribute name of the list is a key. A name's value is the value at its last occurrence, so a later duplicate overwrites an earlier one, and a valueless attribute maps to `None`. |
| `HtmlParser.AttrMapKeyFrom` | htmlparser.py:28-30 | Converse of the above: every key of the dictionary is a name from the list, and its value comes from that name's last occurrence. |
| `HtmlParser.HandleStart` | htmlparser.py:66-78 | A start tag appends one element with that tag and those attributes. With a non-empty stack, its parent is the stack top and it becomes the top's last child. With an empty stack, it has no parent. It is pushed exactly when its tag is not void. It becomes the root only if there is none yet. Nodes other than the top are untouched, and the tree stays well formed. |
| `HtmlParser.HandleEnd` | htmlparser.py:80-83 | An end tag naming a void tag changes nothing. Any other end tag pops the stack top whatever its name. On an empty stack the pop is an error. |
| `HtmlParser.EndUndoesStart` | htmlparser.py:77-83 | Pop inverts push: a non-void start tag followed by any non-void end tag leaves the stack as it was, and the new element stays in the tree. |
| `HtmlParser.HandleData` | htmlparser.py:85-89 | With a non-empty stack, the text becomes a Text node whose parent is the stack top and which is the top's last child. With an empty stack, the text is dropped. The stack and the root never change. |
| `HtmlParser.Feed` | htmlparser.py:91-92 | Feeding any token sequence keeps the tree well formed and the stack made of non-void elements. Existing nodes only gain children. Once there is a root it is never replaced. The only error is a pop from an empty stack. |
| `HtmlParser.Lex` | htmlparser.py:91-95 | A returned tree is well formed, and its root is a parentless element. |
| `HtmlParser.RootIsFirstStartTag` | htmlparser.py:66-69 | The root that `lex` returns is the element built for the first start tag of the input, with that tag's name and attributes. Later start tags never replace it. |
| `HtmlParser.NoStartTagNoTree` | htmlparser.py:93-94 | Input with no start tag yields no tree. When it also has no stray non-void end tag, the error is the missing root. |
| `HtmlParser.LexNoRootIff` | htmlparser.py:91-95 | `lex` reports the missing root exactly when the input has no start tag and no non-void end tag. So an input with a start tag never gets that error: it yields a tree, or the empty-stack error when a stray end tag comes first. |
| `HtmlParser.EmptyFeedTokens` | htmlparser.py:66-92 | A feed that succeeds without setting a root has seen no start tag and no non-void end tag. |
| `HtmlParser.DetachedStartUnreachable` | htmlparser.py:66-78 | A start tag that arrives after the stack has emptied gets no parent. Neither it nor anything later placed below it is reachable from the root. |
| `HtmlParser.VoidElementIsNotPopped` | htmlparser.py:77-83 | In `<p><img></p>` the void `img` is never pushed, so `</p>` pops `p` and leaves the stack empty. |
| `HtmlParser.StrayEndTagFails` | htmlparser.py:80-83 | A stray end tag after the root has closed pops an empty stack, so `lex` fails. |
| `HtmlParser.NestedDocument` | htmlparser.py:66-89 | `<p>hello <b>world</b></p>` gives p, "hello ", b and "world" in document order, each linked both ways with its parent. |
| `Selectors.MatchesNode` | css.py:18-33 | The loop of `matches` computes the declarative meaning. A tag selector holds exactly of an element with that tag. A descendant selector holds exactly when its descendant part matches the node and its ancestor part matches some strict ancestor. The node itself is never tried as its own ancestor. |
| `Selectors.RootNeverDescendant` | css.py:29-33 | A parentless node never matches a descendant selector. |
| `Chars.Lower` | css.py:67 | Lower-casing keeps the length and maps each character to its lower-case form. |
| `CssParser.Whitespace` | css.py:43-45 | Skips exactly the maximal run of white space. |
| `CssParser.Word` | css.py:47-55 | On success: a non-empty, maximal run of alphanumerics and `#-.%`, ending at the new index. On failure: the run is empty and the index is unchanged. |
| `CssParser.Literal` | css.py:57-59 | Succeeds exactly when the expected character is next, and then consumes exactly that one character. |
| `CssParser.Pair` | css.py:61-67 | `pair()` succeeds exactly when a word is followed by white space, a `:`, white space and a second word. It returns the first word lower-cased and the second unchanged, and ends right after the second word, which is maximal. No `}` is passed. |
| `CssParser.ColonValue` | css.py:63-66 | After the name: it succeeds exactly when a `:` follows the white space and a word follows the white space after it. It returns that word and ends after it. |
| `CssParser.IgnoreUntil` | css.py:69-75 | Stops at the first character of the stop set and returns it, or reaches the end and returns nothing. Nothing skipped is in the set. |
| `CssParser.SkipDeclaration` | css.py:88-93 | After a failed declaration, when a `;` comes before any `}`, the scan resumes after the first such `;` and the white space that follows it. Otherwise it stops on the first `}`, or at the end. No `;` or `}` is skipped on the way. |
| `CssParser.AfterPair` | css.py:83-85 | After a stored pair: white space, `;` and white space, then the next declaration. Every name stored so far stays stored; its value either stays or is replaced by a non-empty word value. The scan ends at a `}` or the end without passing a `}`. |
| `CssParser.Recover` | css.py:86-93 | The `except` branch of the body loop keeps every name stored so far; a value either stays or is replaced by a non-empty word value. It ends at a `}` or the end without passing a `}`. When no `;` comes before the next `}` or the end, `break` returns the stored pairs unchanged at that point. |
| `CssParser.StoreDeclaration` | css.py:82 | Storing a pair maps its lower-cased name to the value. The keys gain exactly that name, and every other entry is unchanged. |
| `CssParser.Body` | css.py:77-94 | `body()` always stops at the end of the text or on a `}`, which it does not consume, with no `}` before it. Every stored entry has a non-empty lower-case name and a non-empty word value. |
| `CssParser.LastWinsMeaning` | css.py:81-82 | The reference reading of a declaration list: the keys are exactly the lower-cased names declared, and each maps to the value of its last declaration. |
| `CssParser.StoreAllIsLastWins` | css.py:81-82 | Storing declarations one after another, from an empty dictionary, gives the reference reading. |
| `CssParser.BodyFromDecls` | css.py:77-94 | On `name:value;` declarations written back to back up to a `}` or the end of the text, the body loop stores them one after another into the dictionary it has, and stops there. |
| `CssParser.BodyOfRendered` | css.py:77-94 | On `name:value;` declarations written back to back and closed by `}`, `body()` returns exactly the reference reading (each lower-cased name with its last value) and stops on the `}`. |
| `CssParser.BodyOfRenderedText` | css.py:77-94 | On `name:value;` declarations written back to back that run to the end of the text, `body()` returns exactly the reference reading and stops at the end. |
| `CssParser.BodyLaterDuplicateWins` | css.py:81-82 | In `x:y;x:z` (names equal up to case), the later value overwrites the earlier one. |
| `CssParser.BodyKeepsPairAndSkipsToSemicolon` | css.py:81-91 | In `x:y w;u:v`, the pair `x:y` is kept although no `;` follows its value. The malformed rest is skipped through the next `;`, and `u:v` is then stored. |
| `CssParser.SimplePair` | css.py:61-67 | A one-letter name and value around a colon give the lower-cased name and the unchanged value. |
| `CssParser.SelectorFrom` | css.py:99-104 | As written, the selector loop can succeed only at the end of the text. With the intended test, it succeeds only at the end or in front of a `{`. |
| `CssParser.ParseSelector` | css.py:97-105 | The same end conditions for the whole `selector()`. |
| `CssParser.RuleAt` | css.py:110-117 | A rule attempt that succeeds consumes at least one character, so the parse loop progresses. |
| `CssParser.SkipRule` | css.py:118-124 | After a failed rule, parsing gives up exactly when no `}` is left. Otherwise it resumes after the first `}` from the failure point and the white space that follows it. |
| `CssParser.ParseFrom` | css.py:107-125 | The parse loop terminates and only appends to the rules it has. |
| `CssParser.RuleNeverParses` | css.py:100 | As written, every rule attempt fails: the selector loop never stops in front of `{`. |
| `CssParser.ParseNeverReturnsRules` | css.py:107-125 | As written, `parse()` returns the empty list for every stylesheet. |
| `CssParser.IntendedRuleParses` | css.py:97-117 | With the selector loop stopping at `{`, a tag, a `{`, a body and its closing `}` make one rule holding the body's declarations. As written, the same text fails. |
| `CssParser.SimpleRule` | css.py:97-125 | `t{x:y}` yields no rule as written. With the intended test, it yields the rule for tag `t` with the declaration `x: y`. |
| `CssParser.ParseIntendedExample` | css.py:97-125 | The concrete case `p{a:b}` of the above. |
| `Cascade.ApplyRule` | css.py:130-135 | A matching rule writes each of its declarations over the style and adds no other key. A rule that does not match changes nothing. |
| `Cascade.ApplyRulesLastWins` | css.py:130-135 | After the rule loop, a property is present exactly when it was before or some matching rule declares it. Its value comes from the last matching rule that declares it, and otherwise is the old one. |
| `Cascade.InlineStyle` | css.py:137 | The inline style is used exactly when the element has a `style` attribute with a non-empty value. |
| `Cascade.InlineDeclarations` | css.py:137-138 | The inline declarations are those `body()` parses from that attribute, and none when it is absent. |
| `Cascade.InlineRendered` | css.py:137-140 | A `style` attribute written as `name:value;` declarations back to back gives each lower-cased name the value of its last declaration, as `CssParser.LastWins` defines it. |
| `Cascade.StyleOf` | css.py:129-140 | An inline declaration overrides every rule. Other properties are as the rule loop left them. |
| `Cascade.StyleOfSource` | css.py:129-140 | Each property of a styled element comes from the inline style, else from the last matching rule that declares it, else from the old map. A property is present exactly when one of these provides it. |
| `Cascade.StyleOfIdempotent` | css.py:129-140 | Styling an element twice gives what styling it once gives. |
| `Cascade.StyleTree` | css.py:129-143 | `style` from an element styles exactly the elements of its subtree, each once. Text nodes and every node outside the subtree keep their maps. |
| `Cascade.StyleKids` | css.py:141-143 | The child loop styles exactly the elements below the remaining children and skips Text children. |
| `Cascade.Style` | css.py:129-143 | On a fresh tree, each element of the root's subtree gets the styles computed from empty maps, and every other node keeps an empty map. |
| `Cascade.StyleTreeIdempotent` | css.py:129-143 | Running `style` twice over the same tree gives what running it once gives. |
| `Display.MakeText` | browser.py:298-307 | A text command keeps its position, text, font and colour. Its bottom lies one line space below its top. |
| `Display.Draw` | browser.py:129-136 | The loop of `draw` executes the commands that pass both culling tests, in display-list order. |
| `Display.FilterVisibleMembers` | browser.py:131-136 | A command is executed exactly when it is in the display list, its top is not below `scroll + HEIGHT`, and its bottom is not above `scroll`. |
| `Display.ScrollUp` | browser.py:97-98 | Scrolling up goes back one step, and never below 0. |
| `Display.ScrollDown` | browser.py:92-94 | As written, scrolling down is the smaller of one step down and the document height less the window height. |
| `Display.ShortDocumentScrollsNegative` | browser.py:92-94 | On a document shorter than the window, scrolling down from the top moves above the page. |
| `Display.ScrollDownClamped` | browser.py:92-94 | With the bound clamped at 0, scrolling down never goes negative. It agrees with the code whenever the document is at least as tall as the window. |
| `Display.ScrollStaysOnPage` | browser.py:92-98 | With the clamped bound, scrolling stays on the page, and scrolling up undoes a full step down. |
| `Lines.Words` | browser.py:275 | `split()` yields only non-empty words without white space. |
| `Lines.WordsOfJoin` | browser.py:275 | `split()` undoes joining words with single spaces. |
| `Lines.BeforeComma` | browser.py:266 | The family is the prefix of the `font-family` value before its first comma. |
| `Lines.FontFor` | browser.py:262-273 | The five style keys are read in source order, and the first missing one is the error. Otherwise: the colour and size are taken as given; the weight is kept if it is `normal` or `bold` and is `normal` otherwise; the slant `normal` becomes `roman`. |
| `Lines.FontWeightIsTkWeight` | browser.py:267-271 | Tk only ever sees the weights `normal` and `bold`, and never the slant `normal`. |
| `Lines.MaxOf` | browser.py:286 | `max` is at least every value of the list. |
| `Lines.MaxOfIsOneOf` | browser.py:286 | `max` is one of the values of the list. |
| `Lines.Flush` | browser.py:282-295 | On an empty line, nothing happens. Otherwise, one command is appended per pending word. The line is cleared, `cursor_x` is reset to 0, and `cursor_y` moves down by 1.25 times the largest ascent plus 1.25 times the largest descent. |
| `Lines.FlushPlacesWords` | browser.py:285-291 | The appended commands are the pending words, in order, at their recorded x plus the block's x. All of them sit on one baseline, 1.25 times the largest ascent below the old cursor. Each top lies between the old and the new cursor. |
| `Lines.LineTextsPlaced` | browser.py:288-291 | Each word's ascent ends on the shared baseline. |
| `Lines.FlushKeepsWords` | browser.py:282-295 | A flush moves each pending word into the output as one command, keeps the earlier output, and never moves the cursor up. The drawn words become the earlier drawn words followed by the pending line's, in order. |
| `Lines.LineTextsWords` | browser.py:288-291 | The commands a line emits draw the line's words, in order. |
| `Lines.FlushIdempotent` | browser.py:282-284 | A second flush does nothing. |
| `Lines.PlaceWordKeepsWord` | browser.py:275-280 | A word is recorded at the current cursor before the cursor advances by its width plus a space. The overflow test comes after the advance, so an overflowing word is flushed on the line it ended, as that line's last command. No word is lost or moved to the next line, and the words set so far (drawn, then pending) gain exactly this word at the end. |
| `Lines.PlaceWords` | browser.py:275-280 | The word loop sets every word, in order: the words set so far (drawn, then pending) gain exactly the given words at the end. Earlier output is kept, and the cursor never moves up. |
| `Lines.TextRun` | browser.py:262-280 | In this model, `text()` fails exactly when a style key is missing, before any word is placed. Otherwise the words set so far gain the words of the split text, in order. |
| `Layout.AnyBlockChildIff` | browser.py:143-148 | The `any` test holds exactly when some child is an element whose tag is a block element. |
| `Layout.LayoutModeIff` | browser.py:139-151 | A Text node is inline. An element is block exactly when it has no children, or some child is an element in `BLOCK_ELEMENTS`. |
| `Layout.Recurse` | browser.py:253-260 | Visiting a subtree succeeds exactly when every Text node's parent style has the font keys. The words set so far (drawn, then pending) gain the subtree's words in document order. At a `br`, the line is flushed first: the output afterwards begins with that flush's commands, which place every word set before the `br`. Earlier output is kept, and the cursor never moves up. |
| `Layout.RecurseKids` | browser.py:259-260 | The child loop appends the remaining children's words, child by child, in document order. |
| `Layout.LayoutBlock` | browser.py:227-251 | Layout succeeds exactly when all font lookups below the node succeed. The box takes its x, y and width from its parent and previous sibling, has a non-negative height, and holds one command per word. Painting it draws exactly the subtree's words, in document order. In block mode it has one child box per child node, in order, at the parent's x and width, stacked from its y, and its height is the sum of theirs. In inline mode it has no child boxes. |
| `Layout.BlockModeLayout` | browser.py:236-246 | The block branch: one box per child node, in order, stacked from the box's y, with the sum of their heights. The box paints the children's words in document order. |
| `Layout.InlineModeLayout` | browser.py:248-251 | The inline branch: no child boxes. The box paints the subtree's words in document order, set from a fresh cursor with the last line flushed. |
| `Layout.LayoutKids` | browser.py:236-246 | One box per remaining child node, in order, each starting where the previous one ends. |
| `Layout.StackedFollowsPrevious` | browser.py:229-231 | Each box after the first starts at `previous.y + previous.height`. |
| `Layout.NoOverlap` | browser.py:236-246 | Stacked sibling boxes never overlap: each ends at or above the top of every later one. |
| `Layout.StackedEnd` | browser.py:246 | The last child box ends at the parent's y plus the sum of the child heights. |
| `Layout.LayoutDocument` | browser.py:178-185 | The document box sits at `(HSTEP, VSTEP)` with width `WIDTH - 2*HSTEP`. Its one child box has that geometry. Its height is the child's height plus `2*VSTEP`. |
| `Layout.BackgroundIff` | browser.py:216-217 | A box has a background exactly when its style names a `background-color` other than `transparent`. |
| `Layout.PaintStartsWithBackground` | browser.py:215-220 | With a background, painting opens with one rectangle from `(x, y)` to `(x+width, y+height)` in that colour. Without one, painting is the children's commands, then the box's own. |
| `Layout.PaintEndsWithOwnWords` | browser.py:222-225 | The box's own words close its commands, after the background and everything its children paint. |
| `Layout.PaintTexts` | browser.py:215-225 | A box paints its children's words, then its own. The background rectangle draws none. |
| `Layout.PaintLength` | browser.py:215-225 | Painting emits one command per word held by the boxes, plus one per box with a background, and nothing else. |
| `Layout.EveryWordPaintedOnce` | browser.py:187-188 | The document's display list draws exactly the words of the root's subtree, in document order and one command each, plus the background rectangles. |

## Left out

- Tokenising (`html.parser.HTMLParser`): `Lex` takes the sequence of callbacks the tokenizer would make. Tag lower-casing, entities and self-closing tags are therefore not modelled.
- Network and files: `request`, `Browser.load` with its stylesheet links, and the `browser.css` default sheet are I/O.
- `Browser.load`'s composition of the stages is not one function. Each stage takes the previous one's result as parameters.
- `cascade_priority` and `tree_to_list` are imported by browser.py but are not part of this model. `Cascade.Style` takes the rule list in whatever order it is given.
- The window, canvas, key bindings and the `execute` methods are UI. `Display.Draw` yields the commands it would execute.
- Fonts: `get_font` and its cache are left out. The size computation `int(float(size[:-2]) * 0.75)` is also left out, so the font keeps the `font-size` text as its size, and a malformed size that makes `float` raise is not modelled. Tk's `measure` and `metrics` are fixed non-negative functions. A pending word records the metrics of its font, which `flush` reads from the same font object.
- Python's Unicode-aware `isspace`, `isalnum` and `lower` are restricted to ASCII.
- The `print` of the exception in `body()` (css.py:87) is output only.
- Class selectors, specificity, property inheritance and percentage font sizes do not exist in this code, so they are not modelled.
- The unused `sizes` table of `BlockLayout` (browser.py:192) is left out.
- The `style` attribute of `Node` is not a field of `Dom.Node`. It is the parallel sequence of maps that `Cascade.Style` returns and `Layout` reads.
- `Layout.LayoutMode`, `Layout.Paint`, `CssParser.Parse`, `Lines.PlaceWord` and `Lines.Join` carry no contract of their own. Their properties are the lemmas above: `LayoutModeIff`, `PaintStartsWithBackground`/`PaintEndsWithOwnWords`/`PaintLength`, `ParseNeverReturnsRules`, `PlaceWordKeepsWord` and `WordsOfJoin`.
- Lines.Words: states that every piece is a word and that splitting undoes joining. That the pieces are exactly the maximal non-space runs of the text is not stated.
- Layout.LayoutBlock: in inline mode, the contract states no child boxes, a non-negative height and one command per word. That the height is the final `cursor_y` and where each line sits are stated per flush by `Lines.FlushPlacesWords`, not for the whole box.
- Lines.TextRun: does not model the `ValueError` that `int(float(size[:-2]) * 0.75)` (browser.py:272) raises on a malformed `font-size`, because the size computation is left out. It states which words are set, in order, and that output is only appended. Where each word goes is stated per word by `Lines.PlaceWordKeepsWord`.
- CssParser.AfterPair: states that every stored name stays stored, that values change only to declared words, and where the scan ends. It does not state which further pairs are stored. `CssParser.BodyOfRendered` states the whole result for well-written declarations.
- CssParser.Recover: on resuming, states only that every stored name stays stored, that values change only to declared words, and where the scan ends. Its exact result on well-written input follows from `CssParser.BodyOfRendered`.
- CssParser.Body: on arbitrary text, states where the scan ends and that every entry is a lower-case name with a word value. The exact dictionary is stated for declarations written as `name:value;` with no white space, closed by `}` (`CssParser.BodyOfRendered`) or running to the end of the text (`CssParser.BodyOfRenderedText`, and `Cascade.InlineRendered` for an inline `style` attribute), and by the examples `BodyLaterDuplicateWins` and `BodyKeepsPairAndSkipsToSemicolon` for duplicates and recovery.
- CssParser.RuleAt: states only that a successful rule attempt consumes input. What the rule holds is stated for a single-tag selector by `CssParser.IntendedRuleParses`.
- CssParser.ParseSelector: states where the selector scan can stop, not the shape of the selector. Each further word wraps the selector so far as the ancestor of a new tag selector, which is visible only in the definition of `CssParser.SelectorFrom`.

## Findings

| source | as written | input that shows it | evidently intended | confidence | as-written member | corrected member |
|---|---|---|---|---|---|---|
| css.py:100 | The selector loop compares the current one-character string with the two-character string `{}`, which never holds, so the loop runs on into the `{` | `p{a:b}`: `word()` fails on `{`, the rule is skipped through `}`, and `parse()` returns no rule; the same happens for every stylesheet | stop the selector at `{`, giving the rule `p` with `a: b` | high; not executed | `CssParser.ParseNeverReturnsRules` | `CssParser.IntendedRuleParses` |
| browser.py:93-94 | The scroll bound is the document height less the window height, with no clamp at 0 | a document 400 high: scrolling down from the top sets the scroll to -200 | clamp the bound at 0 so the page never scrolls above its top | medium; not executed | `Display.ShortDocumentScrollsNegative` | `Display.ScrollStaysOnPage` |

=== FILE: cascade.dfy ===
/** `style()` of css.py (css.py:129-143): the matching rules' declarations in
    list order, then the inline `style` attribute, written into each
    element's style map, over the subtree of the node it starts from. The
    style maps are a sequence parallel to the node arena. */
module Cascade {
  import opened Wrappers
  import opened Dom
  import opened Selectors
  import opened CssParser

  /** One step of the rule loop: a matching rule's declarations overwrite
      the properties they name (css.py:130-135). */
  function ApplyRule(st: StyleMap, rule: Rule, nodes: seq<Node>, j: nat): (r: StyleMap)
    requires WellFormed(nodes) && j < |nodes|
    ensures Matches(rule.selector, nodes, j) ==> r.Keys == st.Keys + rule.body.Keys
    ensures !Matches(rule.selector, nodes, j) ==> r == st
    ensures forall p :: p in r ==> r[p] == if p in rule.body && Matches(rule.selector, nodes, j) then rule.body[p] else st[p]
  {
    if Matches(rule.selector, nodes, j) then st + rule.body else st
  }

  /** The rule loop of `style()` for node j, in list order. */
  function ApplyRules(st: StyleMap, rules: seq<Rule>, nodes: seq<Node>, j: nat): (r: StyleMap)
    requires WellFormed(nodes) && j < |nodes|
    ensures st.Keys <= r.Keys
    decreases |rules|
  {
    if rules == [] then st
    else ApplyRules(ApplyRule(st, rules[0], nodes, j), rules[1..], nodes, j)
  }

  /** The index of the last rule that matches node j and declares p, if any:
      an independent description of which rule a property comes from. */
  function LastProvider(rules: seq<Rule>, nodes: seq<Node>, j: nat, p: string): (r: Option<nat>)
    requires WellFormed(nodes) && j < |nodes|
    ensures r.Some? ==>
      && r.value < |rules| && Matches(rules[r.value].selector, nodes, j) && p in rules[r.value].body
      && forall l :: r.value < l < |rules| ==> !(Matches(rules[l].selector, nodes, j) && p in rules[l].body)
    ensures r.None? ==> forall l :: 0 <= l < |rules| ==> !(Matches(rules[l].selector, nodes, j) && p in rules[l].body)
    decreases |rules|
  {
    if rules == [] then None
    else
      var n := |rules| - 1;
      if Matches(rules[n].selector, nodes, j) && p in rules[n].body then Some(n)
      else LastProvider(rules[..n], nodes, j, p)
  }

  lemma {:induction false} ApplyRulesSnoc(st: StyleMap, rules: seq<Rule>, rule: Rule, nodes: seq<Node>, j: nat)
    requires WellFormed(nodes) && j < |nodes|
    ensures ApplyRules(st, rules + [rule], nodes, j) == ApplyRule(ApplyRules(st, rules, nodes, j), rule, nodes, j)
    decreases |rules|
  {
    if rules == [] {
      assert [] + [rule] == [rule];
      assert ApplyRules(ApplyRule(st, rule, nodes, j), [], nodes, j) == ApplyRule(st, rule, nodes, j);
    } else {
      assert (rules + [rule])[1..] == rules[1..] + [rule];
      ApplyRulesSnoc(ApplyRule(st, rules[0], nodes, j), rules[1..], rule, nodes, j);
    }
  }

  /** The last matching rule wins for each property; a property no matching
      rule declares keeps its previous value. */
  lemma {:induction false} ApplyRulesLastWins(st: StyleMap, rules: seq<Rule>, nodes: seq<Node>, j: nat, p: string)
    requires WellFormed(nodes) && j < |nodes|
    ensures p in ApplyRules(st, rules, nodes, j) <==> p in st || LastProvider(rules, nodes, j, p).Some?
    ensures p in ApplyRules(st, rules, nodes, j) ==>
      ApplyRules(st, rules, nodes, j)[p] ==
        match LastProvider(rules, nodes, j, p)
        case Some(k) => rules[k].body[p]
        case None => st[p]
    decreases |rules|
  {
    if rules != [] {
      var n := |rules| - 1;
      assert rules == rules[..n] + [rules[n]];
      ApplyRulesSnoc(st, rules[..n], rules[n], nodes, j);
      ApplyRulesLastWins(st, rules[..n], nodes, j, p);
      var k := LastProvider(rules[..n], nodes, j, p);
      if k.Some? {
        assert rules[..n][k.value] == rules[k.value];
      }
    }
  }

  /** The value of the inline `style` attribute when `attrs.get("style")`
      is truthy: present, not valueless and not empty (css.py:137). */
  function InlineStyle(n: Node): (r: Option<string>)
    ensures r.Some? <==> n.Element? && "style" in n.attrs && n.attrs["style"].Some? && n.attrs["style"].value != ""
    ensures r.Some? ==> r.value == n.attrs["style"].value
  {
    if n.Element? && "style" in n.attrs then
      match n.attrs["style"]
      case Some(v) => if v != "" then Some(v) else None
      case None => None
    else None
  }

  /** The declarations of the inline style, parsed with `body()`. */
  function InlineDeclarations(n: Node): (r: StyleMap)
    ensures InlineStyle(n).None? ==> r == map[]
    ensures InlineStyle(n).Some? ==> r == Body(InlineStyle(n).value, 0).0
    ensures forall p :: p in r ==> Declared(p, r[p])
  {
    match InlineStyle(n)
    case Some(v) => Body(v, 0).0
    case None => map[]
  }

  /** An inline `style` attribute written as `name:value;` declarations back
      to back gives, for each lower-cased name, the value of its last
      declaration (css.py:137-140). */
  lemma InlineRendered(n: Node, ds: seq<(string, string)>)
    requires WellWritten(ds)
    requires n.Element? && "style" in n.attrs && n.attrs["style"] == Some(Render(ds))
    ensures InlineDeclarations(n) == LastWins(ds)
  {
    BodyOfRenderedText(ds);
  }

  /** The new style of element j: the rules in list order, then the inline
      declarations over them (css.py:130-140). */
  function StyleOf(st: StyleMap, rules: seq<Rule>, nodes: seq<Node>, j: nat): (r: StyleMap)
    requires WellFormed(nodes) && j < |nodes|
    ensures forall p :: p in InlineDeclarations(nodes[j]) ==> p in r && r[p] == InlineDeclarations(nodes[j])[p]
    ensures forall p :: p !in InlineDeclarations(nodes[j]) ==>
      (p in r <==> p in ApplyRules(st, rules, nodes, j)) &&
      (p in r ==> r[p] == ApplyRules(st, rules, nodes, j)[p])
  {
    ApplyRules(st, rules, nodes, j) + InlineDeclarations(nodes[j])
  }

  /** Where each property of a styled element comes from: the inline style,
      else the last matching rule that declares it, else the old map. */
  lemma StyleOfSource(st: StyleMap, rules: seq<Rule>, nodes: seq<Node>, j: nat, p: string)
    requires WellFormed(nodes) && j < |nodes|
    ensures p in StyleOf(st, rules, nodes, j) <==>
      p in InlineDeclarations(nodes[j]) || LastProvider(rules, nodes, j, p).Some? || p in st
    ensures p in StyleOf(st, rules, nodes, j) ==>
      StyleOf(st, rules, nodes, j)[p] ==
        if p in InlineDeclarations(nodes[j]) then InlineDeclarations(nodes[j])[p]
        else match LastProvider(rules, nodes, j, p)
          case Some(k) => rules[k].body[p]
          case None => st[p]
  {
    ApplyRulesLastWins(st, rules, nodes, j, p);
  }

  /** Styling an element a second time changes nothing. */
  lemma StyleOfIdempotent(st: StyleMap, rules: seq<Rule>, nodes: seq<Node>, j: nat)
    requires WellFormed(nodes) && j < |nodes|
    ensures StyleOf(StyleOf(st, rules, nodes, j), rules, nodes, j) == StyleOf(st, rules, nodes, j)
  {
    var once := StyleOf(st, rules, nodes, j);
    var twice := StyleOf(once, rules, nodes, j);
    forall p
      ensures p in twice <==> p in once
      ensures p in twice ==> twice[p] == once[p]
    {
      StyleOfSource(st, rules, nodes, j, p);
      StyleOfSource(once, rules, nodes, j, p);
    }
  }

  /** The elements `style()` reaches from node i: i and its descendants that
      are elements. Text nodes have no children, so no element below i is
      cut off by a Text node. */
  predicate Styled(nodes: seq<Node>, i: nat, m: nat)
    requires WellFormed(nodes) && m < |nodes|
  {
    InTree(nodes, i, m) && nodes[m].Element?
  }

  /** Node m lies in the subtree of one of the children k.. of node i. */
  predicate InKids(nodes: seq<Node>, i: nat, k: nat, m: nat)
    requires WellFormed(nodes) && i < |nodes| && m < |nodes|
  {
    exists l :: k <= l < |nodes[i].children| && nodes[i].children[l] < |nodes| && InTree(nodes, nodes[i].children[l], m)
  }

  /** `style(node, rules)` from element i (css.py:129-143), with the style
      maps so far; every element of i's subtree is styled, every other map
      is left as it was. */
  function StyleTree(nodes: seq<Node>, rules: seq<Rule>, i: nat, styles: seq<StyleMap>): (r: seq<StyleMap>)
    requires WellFormed(nodes) && i < |nodes| && nodes[i].Element? && |styles| == |nodes|
    ensures |r| == |nodes|
    ensures forall m :: 0 <= m < |nodes| ==>
      r[m] == if Styled(nodes, i, m) then StyleOf(styles[m], rules, nodes, m) else styles[m]
    decreases |nodes| - i, |nodes[i].children| + 1
  {
    var own := styles[i := StyleOf(styles[i], rules, nodes, i)];
    var r := StyleKids(nodes, rules, i, 0, own);
    forall m | 0 <= m < |nodes|
      ensures r[m] == if Styled(nodes, i, m) then StyleOf(styles[m], rules, nodes, m) else styles[m]
    {
      SubtreeSplit(nodes, i, m);
      if m == i {
        StyleOfIdempotent(styles[i], rules, nodes, i);
      }
    }
    r
  }

  /** The loop `for child in node.children` of `style()`, from child k on:
      element children are styled recursively, Text children skipped. */
  function StyleKids(nodes: seq<Node>, rules: seq<Rule>, i: nat, k: nat, styles: seq<StyleMap>): (r: seq<StyleMap>)
    requires WellFormed(nodes) && i < |nodes| && k <= |nodes[i].children| && |styles| == |nodes|
    ensures |r| == |nodes|
    ensures forall m :: 0 <= m < |nodes| ==>
      r[m] == if InKids(nodes, i, k, m) && nodes[m].Element? then StyleOf(styles[m], rules, nodes, m) else styles[m]
    decreases |nodes| - i, |nodes[i].children| - k
  {
    if k == |nodes[i].children| then styles
    else
      assert NodeOk(nodes, i);
      var c := nodes[i].children[k];
      var next := if nodes[c].Element? then StyleTree(nodes, rules, c, styles) else styles;
      var r := StyleKids(nodes, rules, i, k + 1, next);
      forall m | 0 <= m < |nodes|
        ensures r[m] == if InKids(nodes, i, k, m) && nodes[m].Element? then StyleOf(styles[m], rules, nodes, m) else styles[m]
      {
        KidsSplit(nodes, i, k, m);
        if nodes[m].Element? {
          StyleOfIdempotent(styles[m], rules, nodes, m);
          if nodes[c].Text? && InTree(nodes, c, m) {
            TextIsLeaf(nodes, c, m);
          }
        }
      }
      r
  }

  /** `style(root, rules)` over a freshly built tree, whose style maps all
      start empty (htmlparser.py:10). */
  function Style(nodes: seq<Node>, rules: seq<Rule>, root: nat): (r: seq<StyleMap>)
    requires WellFormed(nodes) && root < |nodes| && nodes[root].Element?
    ensures |r| == |nodes|
    ensures forall m :: 0 <= m < |nodes| ==>
      r[m] == if Styled(nodes, root, m) then StyleOf(map[], rules, nodes, m) else map[]
  {
    StyleTree(nodes, rules, root, seq(|nodes|, _ => map[]))
  }

  /** Running `style()` twice over the same subtree gives what running it
      once gives. */
  lemma StyleTreeIdempotent(nodes: seq<Node>, rules: seq<Rule>, i: nat, styles: seq<StyleMap>)
    requires WellFormed(nodes) && i < |nodes| && nodes[i].Element? && |styles| == |nodes|
    ensures StyleTree(nodes, rules, i, StyleTree(nodes, rules, i, styles)) == StyleTree(nodes, rules, i, styles)
  {
    var once := StyleTree(nodes, rules, i, styles);
    var twice := StyleTree(nodes, rules, i, once);
    forall m | 0 <= m < |nodes|
      ensures twice[m] == once[m]
    {
      if Styled(nodes, i, m) {
        StyleOfIdempotent(styles[m], rules, nodes, m);
      }
    }
  }

  /** A Text node has no descendants but itself. */
  lemma TextIsLeaf(nodes: seq<Node>, c: nat, m: nat)
    requires WellFormed(nodes) && c < |nodes| && m < |nodes| && nodes[c].Text?
    requires InTree(nodes, c, m)
    ensures m == c
  {
    if m != c {
      AncestorsAreElements(nodes, m, c);
    }
  }

  /** Every strict ancestor is an element: it has a child. */
  lemma {:induction false} AncestorsAreElements(nodes: seq<Node>, m: nat, a: nat)
    requires WellFormed(nodes) && m < |nodes| && a in Ancestors(nodes, m)
    ensures nodes[a].Element?
    decreases m
  {
    assert NodeOk(nodes, m);
    var p := nodes[m].parent.value;
    if a == p {
      assert NodeOk(nodes, p);
      assert m in nodes[p].children;
    } else {
      AncestorsAreElements(nodes, p, a);
    }
  }

  /** The subtree of i is i itself and the subtrees of its children. */
  lemma SubtreeSplit(nodes: seq<Node>, i: nat, m: nat)
    requires WellFormed(nodes) && i < |nodes| && m < |nodes|
    ensures InTree(nodes, i, m) <==> m == i || InKids(nodes, i, 0, m)
  {
    assert NodeOk(nodes, i);
    if m != i && InTree(nodes, i, m) {
      var l := ChildOnPath(nodes, i, m);
    }
    if InKids(nodes, i, 0, m) {
      var l :| 0 <= l < |nodes[i].children| && nodes[i].children[l] < |nodes| && InTree(nodes, nodes[i].children[l], m);
      var c := nodes[i].children[l];
      assert NodeOk(nodes, c);
      assert Ancestors(nodes, c)[0] == i;
      InTreeTransitive(nodes, i, c, m);
    }
  }

  /** A strict descendant m of i lies below one of i's children. */
  lemma {:induction false} ChildOnPath(nodes: seq<Node>, i: nat, m: nat) returns (l: nat)
    requires WellFormed(nodes) && i < |nodes| && m < |nodes|
    requires m != i && InTree(nodes, i, m)
    ensures l < |nodes[i].children| && nodes[i].children[l] < |nodes| && InTree(nodes, nodes[i].children[l], m)
    decreases m
  {
    assert NodeOk(nodes, m);
    var p := nodes[m].parent.value;
    assert Ancestors(nodes, m) == [p] + Ancestors(nodes, p);
    assert NodeOk(nodes, p);
    if p == i {
      l :| 0 <= l < |nodes[i].children| && nodes[i].children[l] == m;
    } else {
      l := ChildOnPath(nodes, i, p);
      var c := nodes[i].children[l];
      assert InTree(nodes, p, m);
      InTreeTransitive(nodes, c, p, m);
    }
  }

  /** Below the children k.. of i: below child k or below the children k+1.. */
  lemma KidsSplit(nodes: seq<Node>, i: nat, k: nat, m: nat)
    requires WellFormed(nodes) && i < |nodes| && k < |nodes[i].children| && m < |nodes|
    ensures nodes[i].children[k] < |nodes|
    ensures InKids(nodes, i, k, m) <==> InTree(nodes, nodes[i].children[k], m) || InKids(nodes, i, k + 1, m)
  {
    assert NodeOk(nodes, i);
  }
}

=== FILE: chars.dfy ===
/** Character classes used by the stylesheet scanner and the line breaker.
    Python's `str.isspace`, `str.isalnum` and `str.lower` are Unicode-aware;
    this model restricts them to ASCII. */
module Chars {

  /** ASCII characters for which Python's `isspace` holds:
      tab, line feed, vertical tab, form feed, carriage return,
      the four information separators 0x1C-0x1F, and space. */
  predicate IsSpace(c: char) {
    c == ' ' || (9 <= c as int <= 13) || (28 <= c as int <= 31)
  }

  predicate IsAlnum(c: char) {
    ('a' <= c <= 'z') || ('A' <= c <= 'Z') || ('0' <= c <= '9')
  }

  predicate IsUpper(c: char) {
    'A' <= c <= 'Z'
  }

  function LowerChar(c: char): (r: char)
    ensures !IsUpper(r)
    ensures IsUpper(c) ==> r as int == c as int + 32
    ensures !IsUpper(c) ==> r == c
  {
    if IsUpper(c) then (c as int + 32) as char else c
  }

  /** `s.lower()` restricted to ASCII letters. */
  function Lower(s: string): (r: string)
    ensures |r| == |s|
    ensures forall k :: 0 <= k < |s| ==> r[k] == LowerChar(s[k])
  {
    seq(|s|, k requires 0 <= k < |s| => LowerChar(s[k]))
  }

  predicate NoUpper(s: string) {
    forall k :: 0 <= k < |s| ==> !IsUpper(s[k])
  }
}

=== FILE: cssparser.dfy ===
/** The index-based stylesheet scanner `CSSParser` of css.py. Each scanner
    function takes the text and the current index `self.i` and returns the
    new index. A failed `assert` (AssertionError) is `Raised`, carrying
    the index reached when it was raised, since the callers' recovery code
    continues from there. */
module CssParser {
  import opened Wrappers
  import opened Chars
  import opened Dom
  import opened Selectors

  datatype Step<T> = Done(value: T, pos: nat) | Raised(pos: nat)

  /** What the `except` branch of `body` does after a failed declaration:
      resume past the `;` at index `semi`, or stop. */
  datatype Recovery = Resume(semi: nat, pos: nat) | Stop(pos: nat)

  datatype Rule = Rule(selector: Selector, body: StyleMap)

  predicate IsWordChar(c: char) {
    IsAlnum(c) || c in "#-.%"
  }

  predicate AllWordChars(w: string) {
    forall k :: 0 <= k < |w| ==> IsWordChar(w[k])
  }

  /** No `}` among s[i..j]. */
  predicate NoBrace(s: string, i: nat, j: nat)
    requires i <= j <= |s|
  {
    '}' !in s[i..j]
  }

  /** `whitespace()`: skips the maximal run of white space. */
  function Whitespace(s: string, i: nat): (r: nat)
    requires i <= |s|
    ensures i <= r <= |s|
    ensures forall k {:trigger IsSpace(s[k])} :: i <= k < r ==> IsSpace(s[k])
    ensures r == |s| || !IsSpace(s[r])
    decreases |s| - i
  {
    if i < |s| && IsSpace(s[i]) then Whitespace(s, i + 1) else i
  }

  function WordEnd(s: string, i: nat): (r: nat)
    requires i <= |s|
    ensures i <= r <= |s|
    ensures forall k {:trigger IsWordChar(s[k])} :: i <= k < r ==> IsWordChar(s[k])
    ensures r == |s| || !IsWordChar(s[r])
    decreases |s| - i
  {
    if i < |s| && IsWordChar(s[i]) then WordEnd(s, i + 1) else i
  }

  /** `word()` (css.py:47-55): the maximal run of word characters starting
      at i; an empty run fails with the index unchanged. */
  function Word(s: string, i: nat): (r: Step<string>)
    requires i <= |s|
    ensures r.Done? ==>
      && i < r.pos <= |s| && r.value == s[i..r.pos] && AllWordChars(r.value)
      && (r.pos == |s| || !IsWordChar(s[r.pos]))
    ensures r.Raised? ==> r.pos == i && (i == |s| || !IsWordChar(s[i]))
  {
    var j := WordEnd(s, i);
    if j > i then Done(s[i..j], j) else Raised(i)
  }

  /** `literal(c)`: consumes exactly the character c. */
  function Literal(s: string, i: nat, c: char): (r: Step<()>)
    requires i <= |s|
    ensures r.Done? <==> i < |s| && s[i] == c
    ensures r.Done? ==> r.pos == i + 1
    ensures r.Raised? ==> r.pos == i
  {
    if i < |s| && s[i] == c then Done((), i + 1) else Raised(i)
  }

  /** `pair()` (css.py:61-67): `name : value`, the name lower-cased and the
      value returned exactly as scanned. */
  function Pair(s: string, i: nat): (r: Step<(string, string)>)
    requires i <= |s|
    ensures i <= r.pos <= |s| && NoBrace(s, i, r.pos)
    ensures r.Done? ==>
      var (name, value) := r.value;
      && 0 < |name| && i + |name| <= r.pos
      && AllWordChars(s[i..i + |name|]) && name == Lower(s[i..i + |name|])
      && 0 < |value| <= r.pos && value == s[r.pos - |value|..r.pos] && AllWordChars(value)
      && (r.pos == |s| || !IsWordChar(s[r.pos]))
    // a word, then white space, a colon, white space and a word
    ensures r.Done? <==> Word(s, i).Done? && ColonValue(s, i, Word(s, i).pos).Done?
    ensures r.Done? ==>
      && r.value.0 == Lower(Word(s, i).value)
      && ColonValue(s, i, Word(s, i).pos) == Done(r.value.1, r.pos)
  {
    match Word(s, i)
    case Raised(f) => Raised(f)
    case Done(name, j) =>
      match ColonValue(s, i, j)
      case Raised(f) => Raised(f)
      case Done(value, m) => Done((Lower(name), value), m)
  }

  /** The part of `pair()` after the name, which ends at j: white space, a
      colon, then the value. */
  function ColonValue(s: string, i: nat, j: nat): (r: Step<string>)
    requires i <= j <= |s|
    requires forall l :: i <= l < j ==> IsWordChar(s[l])
    ensures j <= r.pos <= |s| && NoBrace(s, i, r.pos)
    ensures r.Done? ==>
      && 0 < |r.value| <= r.pos - j && r.value == s[r.pos - |r.value|..r.pos] && AllWordChars(r.value)
      && (r.pos == |s| || !IsWordChar(s[r.pos]))
    ensures var k0 := Whitespace(s, j);
      && (r.Done? <==> k0 < |s| && s[k0] == ':' && Word(s, Whitespace(s, k0 + 1)).Done?)
      && (r.Done? ==> Word(s, Whitespace(s, k0 + 1)) == r)
  {
    var k0 := Whitespace(s, j);
    RunNoBrace(s, i, k0);
    match Literal(s, k0, ':')
    case Raised(f) => Raised(f)
    case Done(_, k) => PairValue(s, i, k)
  }

  /** The part of `pair()` after the colon: white space, then the value. */
  function PairValue(s: string, i: nat, k: nat): (r: Step<string>)
    requires i <= k <= |s|
    requires forall l :: i <= l < k ==> IsSpace(s[l]) || IsWordChar(s[l]) || s[l] in ":;"
    ensures k <= r.pos <= |s| && NoBrace(s, i, r.pos)
    ensures r.Done? ==>
      && 0 < |r.value| <= r.pos - k && r.value == s[r.pos - |r.value|..r.pos] && AllWordChars(r.value)
      && (r.pos == |s| || !IsWordChar(s[r.pos]))
    ensures r == Word(s, Whitespace(s, k))
  {
    var k1 := Whitespace(s, k);
    RunNoBrace(s, i, k1);
    match Word(s, k1)
    case Raised(f) => Raised(f)
    case Done(value, m) =>
      RunNoBrace(s, i, m);
      Done(value, m)
  }

  /** A stretch of white space, word characters, `:` and `;` holds no `}`. */
  lemma RunNoBrace(s: string, i: nat, j: nat)
    requires i <= j <= |s|
    requires forall l :: i <= l < j ==> IsSpace(s[l]) || IsWordChar(s[l]) || s[l] in ":;"
    ensures NoBrace(s, i, j)
  {
    NoBraceBetween(s, i, j);
  }

  lemma NoBraceBetween(s: string, i: nat, j: nat)
    requires i <= j <= |s|
    requires forall l :: i <= l < j ==> s[l] != '}'
    ensures NoBrace(s, i, j)
  {
    assert forall l :: 0 <= l < j - i ==> s[i..j][l] == s[i + l];
  }

  /** `ignore_until(chars)`: advances to the first character in chars and
      returns it, or to the end of the text and returns None. */
  function IgnoreUntil(s: string, i: nat, chars: string): (r: (Option<char>, nat))
    requires i <= |s|
    ensures i <= r.1 <= |s|
    ensures forall k :: i <= k < r.1 ==> s[k] !in chars
    ensures r.1 < |s| ==> r.0 == Some(s[r.1]) && s[r.1] in chars
    ensures r.1 == |s| ==> r.0 == None
    decreases |s| - i
  {
    if i == |s| then (None, i)
    else if s[i] in chars then (Some(s[i]), i)
    else IgnoreUntil(s, i + 1, chars)
  }

  /** The `except` branch of `body()` (css.py:86-91): skip through the next
      `;` and resume, or stop on a `}` or at the end of the text. */
  function SkipDeclaration(s: string, f: nat): (r: Recovery)
    requires f <= |s|
    ensures f <= r.pos <= |s| && NoBrace(s, f, r.pos)
    ensures r.Resume? ==>
      && f <= r.semi < |s| && s[r.semi] == ';' && r.pos == Whitespace(s, r.semi + 1)
      && forall k :: f <= k < r.semi ==> s[k] != ';' && s[k] != '}'
    ensures r.Stop? ==>
      && (r.pos == |s| || s[r.pos] == '}')
      && forall k :: f <= k < r.pos ==> s[k] != ';' && s[k] != '}'
  {
    var (why, j) := IgnoreUntil(s, f, ";}");
    if why == Some(';') then
      // `literal(";")` cannot fail here: s[j] is the ';' just found
      NoBraceBetween(s, f, j);
      RunNoBrace(s, j, Whitespace(s, j + 1));
      NoBraceConcat(s, f, j, Whitespace(s, j + 1));
      Resume(j, Whitespace(s, j + 1))
    else
      Stop(j)
  }

  /** A declaration the body stored: a non-empty lower-case name and a
      non-empty value made of word characters. */
  predicate Declared(name: string, value: string) {
    0 < |name| && NoUpper(name) && 0 < |value| && AllWordChars(value)
  }

  /** Every name of `acc` is still in `m`, and every entry of `m` is one of
      `acc`, unchanged, or a declaration (which may overwrite a value). */
  predicate Keeps(acc: StyleMap, m: StyleMap) {
    && acc.Keys <= m.Keys
    && forall name :: name in m ==> (name in acc && m[name] == acc[name]) || Declared(name, m[name])
  }

  lemma KeepsTransitive(a: StyleMap, b: StyleMap, c: StyleMap)
    requires Keeps(a, b) && Keeps(b, c)
    ensures Keeps(a, c)
  {
  }

  /** The loop of `body()` (css.py:77-94) from index i, with the pairs
      gathered so far. It stops on the first `}` at or after i, or at the
      end of the text, and never consumes that `}`. */
  function BodyFrom(s: string, i: nat, acc: StyleMap): (r: (StyleMap, nat))
    requires i <= |s|
    ensures i <= r.1 <= |s| && NoBrace(s, i, r.1)
    ensures r.1 == |s| || s[r.1] == '}'
    ensures Keeps(acc, r.0)
    decreases |s| - i, 2
  {
    if i == |s| || s[i] == '}' then (acc, i)
    else
      match Pair(s, i)
      case Raised(f) =>
        var r := Recover(s, f, acc);
        NoBraceConcat(s, i, f, r.1);
        r
      case Done(pair, j) =>
        // the pair is stored before the `;` is looked for
        var acc' := StoreDeclaration(acc, pair);
        var r := AfterPair(s, j, acc');
        NoBraceConcat(s, i, j, r.1);
        KeepsTransitive(acc, acc', r.0);
        r
  }

  /** The rest of the `try` block of `body()` once a pair is stored: white
      space, a `;` and white space, then the next declaration. */
  function AfterPair(s: string, j: nat, acc: StyleMap): (r: (StyleMap, nat))
    requires j <= |s|
    ensures j <= r.1 <= |s| && NoBrace(s, j, r.1)
    ensures r.1 == |s| || s[r.1] == '}'
    ensures Keeps(acc, r.0)
    decreases |s| - j, 1
  {
    var k0 := Whitespace(s, j);
    match Literal(s, k0, ';')
    case Done(_, k) =>
      var k1 := Whitespace(s, k);
      RunNoBrace(s, j, k1);
      var r := BodyFrom(s, k1, acc);
      NoBraceConcat(s, j, k1, r.1);
      r
    case Raised(f) =>
      RunNoBrace(s, j, f);
      var r := Recover(s, f, acc);
      NoBraceConcat(s, j, f, r.1);
      r
  }

  /** The `except` branch of `body()`: resume after the next `;`, or stop. */
  function Recover(s: string, f: nat, acc: StyleMap): (r: (StyleMap, nat))
    requires f <= |s|
    ensures f <= r.1 <= |s| && NoBrace(s, f, r.1)
    ensures r.1 == |s| || s[r.1] == '}'
    ensures Keeps(acc, r.0)
    // `break`: no `;` before the next `}` or the end, and the pairs stored
    // so far are returned there unchanged
    ensures SkipDeclaration(s, f).Stop? ==> r == (acc, SkipDeclaration(s, f).pos)
    decreases |s| - f, 0
  {
    match SkipDeclaration(s, f)
    case Resume(_, k) =>
      var r := BodyFrom(s, k, acc);
      NoBraceConcat(s, f, k, r.1);
      r
    case Stop(k) => (acc, k)
  }

  /** `pairs[prop.lower()] = val`: a later duplicate name overwrites. */
  function StoreDeclaration(acc: StyleMap, pair: (string, string)): (r: StyleMap)
    requires 0 < |pair.0| && 0 < |pair.1| && AllWordChars(pair.1)
    ensures r.Keys == acc.Keys + {Lower(pair.0)}
    ensures Lower(pair.0) in r && r[Lower(pair.0)] == pair.1
    ensures forall n :: n in acc && n != Lower(pair.0) ==> r[n] == acc[n]
    ensures Keeps(acc, r)
  {
    LowerNoUpper(pair.0);
    acc[Lower(pair.0) := pair.1]
  }

  lemma NoBraceConcat(s: string, i: nat, j: nat, k: nat)
    requires i <= j <= k <= |s|
    requires NoBrace(s, i, j) && NoBrace(s, j, k)
    ensures NoBrace(s, i, k)
  {
    assert s[i..k] == s[i..j] + s[j..k];
  }

  lemma LowerNoUpper(s: string)
    ensures NoUpper(Lower(s)) && 0 < |s| ==> 0 < |Lower(s)|
  {
  }

  /** `body()`: the declarations of a rule body or of an inline `style`
      attribute, and the index where it stopped. */
  function Body(s: string, i: nat): (r: (StyleMap, nat))
    requires i <= |s|
    ensures i <= r.1 <= |s| && NoBrace(s, i, r.1)
    ensures r.1 == |s| || s[r.1] == '}'
    ensures forall name :: name in r.0 ==> Declared(name, r.0[name])
  {
    BodyFrom(s, i, map[])
  }

  /** The loop test of `selector()`. As written (css.py:100) it compares a
      one-character string with the two-character string "{}", which never
      holds, so the test is always true; `intended` selects the evident
      intent, a comparison with '{'. */
  predicate SelectorContinues(c: char, intended: bool) {
    if intended then c != '{' else [c] != "{}"
  }

  /** The loop of `selector()` (css.py:98-104): each further word wraps the
      selector so far as the ancestor of a new tag selector. */
  function SelectorFrom(s: string, i: nat, out: Selector, intended: bool): (r: Step<Selector>)
    requires i <= |s|
    ensures i <= r.pos <= |s|
    ensures r.Done? && !intended ==> r.pos == |s|
    ensures r.Done? && intended ==> r.pos == |s| || s[r.pos] == '{'
    decreases |s| - i
  {
    if i < |s| && SelectorContinues(s[i], intended) then
      match Word(s, i)
      case Raised(f) => Raised(f)
      case Done(tag, j) => SelectorFrom(s, Whitespace(s, j), Descendant(out, Tag(Lower(tag))), intended)
    else
      Done(out, i)
  }

  /** `selector()` (css.py:97-105). */
  function ParseSelector(s: string, i: nat, intended: bool): (r: Step<Selector>)
    requires i <= |s|
    ensures i <= r.pos <= |s|
    ensures r.Done? && !intended ==> r.pos == |s|
    ensures r.Done? && intended ==> r.pos == |s| || s[r.pos] == '{'
  {
    match Word(s, i)
    case Raised(f) => Raised(f)
    case Done(tag, j) => SelectorFrom(s, Whitespace(s, j), Tag(Lower(tag)), intended)
  }

  /** The `try` block of `parse()` (css.py:110-117): one rule. */
  function RuleAt(s: string, i: nat, intended: bool): (r: Step<Rule>)
    requires i <= |s|
    ensures i <= r.pos <= |s|
    ensures r.Done? ==> i < r.pos
  {
    match ParseSelector(s, i, intended)
    case Raised(f) => Raised(f)
    case Done(selector, j) =>
      match Literal(s, j, '{')
      case Raised(f) => Raised(f)
      case Done(_, k) =>
        var body := Body(s, Whitespace(s, k));
        match Literal(s, body.1, '}')
        case Raised(f) => Raised(f)
        case Done(_, n) => Done(Rule(selector, body.0), n)
  }

  /** The loop of `parse()` (css.py:97-125) from index i with the rules
      gathered so far; a failed rule is skipped through the next `}`, and
      parsing ends when there is none. */
  function ParseFrom(s: string, i: nat, rules: seq<Rule>, intended: bool): (r: seq<Rule>)
    requires i <= |s|
    ensures rules <= r
    decreases |s| - i
  {
    if i == |s| then rules
    else
      match RuleAt(s, Whitespace(s, i), intended)
      case Done(rule, j) => ParseFrom(s, j, rules + [rule], intended)
      case Raised(f) =>
        match SkipRule(s, f)
        case Some(k) => ParseFrom(s, k, rules, intended)
        case None => rules
  }

  /** The `except` branch of `parse()` (css.py:118-124): skip through the
      next `}` and the white space after it, or give up when there is no
      `}` left. */
  function SkipRule(s: string, f: nat): (r: Option<nat>)
    requires f <= |s|
    ensures r.None? <==> forall k :: f <= k < |s| ==> s[k] != '}'
    ensures r.Some? ==> f < r.value <= |s|
    // resumes after the first `}` at or after f and the white space after it
    ensures r.Some? ==>
      exists j :: f <= j < |s| && s[j] == '}' && r.value == Whitespace(s, j + 1)
        && forall k :: f <= k < j ==> s[k] != '}'
  {
    var (why, k) := IgnoreUntil(s, f, "}");
    if why == Some('}') then
      // `literal("}")` cannot fail here: s[k] is the '}' just found
      Some(Whitespace(s, k + 1))
    else
      None
  }

  /** `CSSParser(s).parse()` as written. */
  function Parse(s: string): seq<Rule> {
    ParseFrom(s, 0, [], false)
  }

  /** `parse()` with the loop test of `selector()` comparing against '{'. */
  function ParseIntended(s: string): seq<Rule> {
    ParseFrom(s, 0, [], true)
  }

  /** As written, `selector()` leaves its loop only at the end of the text or
      by a failed `word()`, so the `{` that must follow is never found and
      no rule attempt succeeds. */
  lemma RuleNeverParses(s: string, i: nat)
    requires i <= |s|
    ensures RuleAt(s, i, false).Raised?
  {
  }

  /** `parse()` as written returns the empty list for every stylesheet
      (css.py:97-125 with the always-true test at css.py:100). */
  lemma ParseNeverReturnsRules(s: string)
    ensures Parse(s) == []
  {
    ParseFromAddsNothing(s, 0, []);
  }

  lemma {:induction false} ParseFromAddsNothing(s: string, i: nat, rules: seq<Rule>)
    requires i <= |s|
    ensures ParseFrom(s, i, rules, false) == rules
    decreases |s| - i
  {
    if i < |s| {
      RuleNeverParses(s, Whitespace(s, i));
      var f := RuleAt(s, Whitespace(s, i), false).pos;
      assert RuleAt(s, Whitespace(s, i), false) == Raised(f);
      match SkipRule(s, f)
      case Some(k) =>
        ParseFromAddsNothing(s, k, rules);
      case None =>
    }
  }

  /** With the intended loop test, a single tag, a `{`, a body and the `}`
      that ends it make one rule holding the body's declarations; as written
      the same text raises. */
  lemma IntendedRuleParses(s: string, i: nat, k: nat, body: StyleMap, m: nat)
    requires i <= |s| && Word(s, i).Done?
    requires k == Whitespace(s, Word(s, i).pos) && k < |s| && s[k] == '{'
    requires (body, m) == Body(s, Whitespace(s, k + 1)) && m < |s|
    ensures RuleAt(s, i, true) == Done(Rule(Tag(Lower(Word(s, i).value)), body), m + 1)
    ensures RuleAt(s, i, false).Raised?
  {
    var sel := Tag(Lower(Word(s, i).value));
    assert SelectorFrom(s, k, sel, true) == Done(sel, k);
    assert ParseSelector(s, i, true) == Done(sel, k);
    var start := Whitespace(s, Literal(s, k, '{').pos);
    assert start == Whitespace(s, k + 1);
    assert Literal(s, m, '}') == Done((), m + 1);
    RuleNeverParses(s, i);
  }

  /** `x:y` at i, one word character on each side of the colon. */
  predicate SimplePairAt(s: string, i: nat) {
    && i + 3 <= |s| && IsWordChar(s[i]) && s[i + 1] == ':' && IsWordChar(s[i + 2])
    && (i + 3 == |s| || !IsWordChar(s[i + 3]))
  }

  lemma SimplePair(s: string, i: nat)
    requires SimplePairAt(s, i)
    ensures Pair(s, i) == Done(([LowerChar(s[i])], [s[i + 2]]), i + 3)
  {
    OneCharWord(s, i);
    assert Whitespace(s, i + 1) == i + 1;
    assert Whitespace(s, i + 2) == i + 2;
    OneCharWord(s, i + 2);
    assert Literal(s, i + 1, ':') == Done((), i + 2);
    assert Lower([s[i]]) == [LowerChar(s[i])];
  }

  /** `t{x:y}`: no rule as written; with the intended loop test, the rule
      for tag `t` holding the declaration `x: y`. */
  lemma SimpleRule(s: string)
    requires |s| == 6 && IsWordChar(s[0]) && s[1] == '{' && SimplePairAt(s, 2) && s[5] == '}'
    ensures Parse(s) == []
    ensures ParseIntended(s) == [Rule(Tag([LowerChar(s[0])]), map[[LowerChar(s[2])] := [s[4]]])]
  {
    ParseNeverReturnsRules(s);
    var rule := Rule(Tag([LowerChar(s[0])]), map[[LowerChar(s[2])] := [s[4]]]);
    SimpleRuleAt(s);
    WordCharAt(s, 0);
    ParseFromRule(s, 0, [], true, rule, 6);
    assert [] + [rule] == [rule];
  }

  lemma WordCharNotSpace(c: char)
    requires IsWordChar(c)
    ensures !IsSpace(c)
  {
  }

  /** White space ends before a word character. */
  lemma WordCharAt(s: string, i: nat)
    requires i < |s| && IsWordChar(s[i])
    ensures Whitespace(s, i) == i
  {
    WordCharNotSpace(s[i]);
  }

  /** One successful rule of the `parse()` loop. */
  lemma ParseFromRule(s: string, i: nat, rules: seq<Rule>, intended: bool, rule: Rule, j: nat)
    requires i < |s| && j <= |s| && RuleAt(s, Whitespace(s, i), intended) == Done(rule, j)
    ensures ParseFrom(s, i, rules, intended) == ParseFrom(s, j, rules + [rule], intended)
  {
  }

  lemma SimpleRuleAt(s: string)
    requires |s| == 6 && IsWordChar(s[0]) && s[1] == '{' && SimplePairAt(s, 2) && s[5] == '}'
    ensures RuleAt(s, 0, true) == Done(Rule(Tag([LowerChar(s[0])]), map[[LowerChar(s[2])] := [s[4]]]), 6)
  {
    OneCharWord(s, 0);
    assert Whitespace(s, 1) == 1;
    assert Whitespace(s, 2) == 2;
    assert Lower([s[0]]) == [LowerChar(s[0])];
    SimplePairLast(s, 2, map[]);
    IntendedRuleParses(s, 0, 1, map[[LowerChar(s[2])] := [s[4]]], 5);
  }

  /** `p{a:b}`: no rule as written, the rule `p` with `a: b` as intended. */
  lemma ParseIntendedExample()
    ensures Parse("p{a:b}") == []
    ensures ParseIntended("p{a:b}") == [Rule(Tag("p"), map["a" := "b"])]
  {
    var s := "p{a:b}";
    assert IsWordChar(s[0]) && SimplePairAt(s, 2);
    SimpleRule(s);
    assert [LowerChar(s[0])] == "p" && [LowerChar(s[2])] == "a" && [s[4]] == "b";
  }

  lemma OneCharWord(s: string, i: nat)
    requires i < |s| && IsWordChar(s[i]) && (i + 1 == |s| || !IsWordChar(s[i + 1]))
    ensures Word(s, i) == Done([s[i]], i + 1)
  {
    assert WordEnd(s, i + 1) == i + 1;
    assert |s[i..i + 1]| == 1 && s[i..i + 1][0] == s[i];
    assert s[i..i + 1] == [s[i]];
  }

  /** The body loop stores a simple pair and goes on after it. */
  lemma StoreSimplePair(s: string, i: nat, acc: StyleMap)
    requires SimplePairAt(s, i)
    ensures BodyFrom(s, i, acc) == AfterPair(s, i + 3, acc[[LowerChar(s[i])] := [s[i + 2]]])
  {
    SimplePair(s, i);
    StoreOne(acc, s[i], s[i + 2]);
  }

  /** `x:y;` followed by more declarations. */
  lemma SimplePairThenSemicolon(s: string, i: nat, acc: StyleMap)
    requires SimplePairAt(s, i) && i + 4 <= |s| && s[i + 3] == ';'
    requires i + 4 == |s| || !IsSpace(s[i + 4])
    ensures BodyFrom(s, i, acc) == BodyFrom(s, i + 4, acc[[LowerChar(s[i])] := [s[i + 2]]])
  {
    StoreSimplePair(s, i, acc);
    AfterPairSemicolon(s, i + 3, acc[[LowerChar(s[i])] := [s[i + 2]]]);
  }

  /** One step of `body()` after a pair: past a `;` that follows at once
      and is not followed by white space. */
  lemma AfterPairSemicolon(s: string, j: nat, acc: StyleMap)
    requires j < |s| && s[j] == ';' && (j + 1 == |s| || !IsSpace(s[j + 1]))
    ensures AfterPair(s, j, acc) == BodyFrom(s, j + 1, acc)
  {
    assert Whitespace(s, j) == j;
    assert Literal(s, j, ';') == Done((), j + 1);
    assert Whitespace(s, j + 1) == j + 1;
  }

  /** Into the `except` branch when no `;` follows the white space. */
  lemma AfterPairRaised(s: string, j: nat, acc: StyleMap)
    requires j <= |s|
    requires !(Whitespace(s, j) < |s| && s[Whitespace(s, j)] == ';')
    ensures AfterPair(s, j, acc) == Recover(s, Whitespace(s, j), acc)
  {
    assert Literal(s, Whitespace(s, j), ';').Raised?;
  }

  /** `x:y` followed by the end of the body or of the text. */
  lemma SimplePairLast(s: string, i: nat, acc: StyleMap)
    requires SimplePairAt(s, i) && (i + 3 == |s| || s[i + 3] == '}')
    ensures BodyFrom(s, i, acc) == (acc[[LowerChar(s[i])] := [s[i + 2]]], i + 3)
  {
    StoreSimplePair(s, i, acc);
    var acc' := acc[[LowerChar(s[i])] := [s[i + 2]]];
    assert Whitespace(s, i + 3) == i + 3;
    assert Literal(s, i + 3, ';') == Raised(i + 3);
    if i + 3 < |s| {
      assert IgnoreUntil(s, i + 3, ";}") == (Some('}'), i + 3);
    }
    assert SkipDeclaration(s, i + 3) == Stop(i + 3);
    assert Recover(s, i + 3, acc') == (acc', i + 3);
  }

  lemma StoreOne(acc: StyleMap, c: char, v: char)
    requires IsWordChar(v)
    ensures StoreDeclaration(acc, ([LowerChar(c)], [v])) == acc[[LowerChar(c)] := [v]]
  {
    assert Lower([LowerChar(c)]) == [LowerChar(c)];
  }

  /** `x:y;x:z` (names equal up to case): the later value overwrites the
      earlier one (css.py:81-82). */
  lemma BodyLaterDuplicateWins(s: string, i: nat)
    requires SimplePairAt(s, i) && i + 4 <= |s| && s[i + 3] == ';'
    requires SimplePairAt(s, i + 4) && i + 7 == |s|
    requires LowerChar(s[i]) == LowerChar(s[i + 4])
    ensures Body(s, i).0 == map[[LowerChar(s[i])] := [s[i + 6]]]
  {
    TwoSimplePairs(s, i);
    assert [LowerChar(s[i + 4])] == [LowerChar(s[i])];
    Overwrite([LowerChar(s[i])], [s[i + 2]], [s[i + 6]]);
  }

  lemma TwoSimplePairs(s: string, i: nat)
    requires SimplePairAt(s, i) && i + 4 <= |s| && s[i + 3] == ';'
    requires SimplePairAt(s, i + 4) && i + 7 == |s|
    ensures Body(s, i).0 == map[][[LowerChar(s[i])] := [s[i + 2]]][[LowerChar(s[i + 4])] := [s[i + 6]]]
  {
    SimplePairThenSemicolon(s, i, map[]);
    SimplePairLast(s, i + 4, map[][[LowerChar(s[i])] := [s[i + 2]]]);
  }

  lemma Overwrite(k: string, v: string, w: string)
    ensures map[][k := v][k := w] == map[k := w]
  {
  }

  /** `x:y w;u:v`: the pair `x:y` is kept although no `;` follows its
      value, the malformed rest is skipped through the next `;`, and the
      scan goes on with `u:v` (css.py:81-91). */
  lemma BodyKeepsPairAndSkipsToSemicolon(s: string, i: nat)
    requires SimplePairAt(s, i) && i + 9 == |s|
    requires s[i + 3] == ' ' && IsWordChar(s[i + 4]) && s[i + 5] == ';'
    requires SimplePairAt(s, i + 6)
    ensures Body(s, i).0 == map[[LowerChar(s[i])] := [s[i + 2]], [LowerChar(s[i + 6])] := [s[i + 8]]]
  {
    KeepPairAndSkip(s, i);
    SimplePairLast(s, i + 6, map[[LowerChar(s[i])] := [s[i + 2]]]);
  }

  lemma KeepPairAndSkip(s: string, i: nat)
    requires SimplePairAt(s, i) && i + 9 == |s|
    requires s[i + 3] == ' ' && IsWordChar(s[i + 4]) && s[i + 5] == ';'
    requires SimplePairAt(s, i + 6)
    ensures BodyFrom(s, i, map[]) == BodyFrom(s, i + 6, map[[LowerChar(s[i])] := [s[i + 2]]])
  {
    KeepPairAndSkipFrom(s, i, map[]);
    Singleton([LowerChar(s[i])], [s[i + 2]]);
  }

  lemma KeepPairAndSkipFrom(s: string, i: nat, acc: StyleMap)
    requires SimplePairAt(s, i) && i + 9 == |s|
    requires s[i + 3] == ' ' && IsWordChar(s[i + 4]) && s[i + 5] == ';'
    requires SimplePairAt(s, i + 6)
    ensures BodyFrom(s, i, acc) == BodyFrom(s, i + 6, acc[[LowerChar(s[i])] := [s[i + 2]]])
  {
    var stored := acc[[LowerChar(s[i])] := [s[i + 2]]];
    StoreSimplePair(s, i, acc);
    WordCharNotSpace(s[i + 6]);
    AfterPairSkips(s, i + 3, stored);
  }

  lemma Singleton(k: string, v: string)
    ensures map[][k := v] == map[k := v]
  {
  }

  /** ` w;` after a pair: no `;` where one is expected, so the declaration
      is abandoned through the next `;`. */
  lemma AfterPairSkips(s: string, j: nat, acc: StyleMap)
    requires j + 3 < |s| && s[j] == ' ' && IsWordChar(s[j + 1]) && s[j + 2] == ';'
    requires !IsSpace(s[j + 3])
    ensures AfterPair(s, j, acc) == BodyFrom(s, j + 3, acc)
  {
    assert Whitespace(s, j + 1) == j + 1;
    assert Whitespace(s, j) == j + 1;
    AfterPairRaised(s, j, acc);
    SkipWordAndSemicolon(s, j + 1, acc);
  }

  lemma SkipWordAndSemicolon(s: string, f: nat, acc: StyleMap)
    requires f + 2 < |s| && s[f] != ';' && s[f] != '}' && s[f + 1] == ';' && !IsSpace(s[f + 2])
    ensures Recover(s, f, acc) == BodyFrom(s, f + 2, acc)
  {
    assert IgnoreUntil(s, f + 1, ";}") == (Some(';'), f + 1);
    assert IgnoreUntil(s, f, ";}") == (Some(';'), f + 1);
    assert Whitespace(s, f + 2) == f + 2;
    assert SkipDeclaration(s, f) == Resume(f + 1, f + 2);
  }

  /** One declaration written out as `name:value;`. */
  function Written(d: (string, string)): string {
    d.0 + ":" + d.1 + ";"
  }

  /** A declaration block written out, one `name:value;` after another with
      no white space. */
  function Render(ds: seq<(string, string)>): string {
    if ds == [] then "" else Written(ds[0]) + Render(ds[1..])
  }

  /** Names and values that `word()` reads whole. */
  predicate WellWritten(ds: seq<(string, string)>) {
    forall k :: 0 <= k < |ds| ==>
      0 < |ds[k].0| && AllWordChars(ds[k].0) && 0 < |ds[k].1| && AllWordChars(ds[k].1)
  }

  /** The reference reading of a declaration block: each lower-cased name
      maps to the value of its last declaration. */
  function LastWins(ds: seq<(string, string)>): StyleMap {
    if ds == [] then map[]
    else LastWins(ds[..|ds| - 1])[Lower(ds[|ds| - 1].0) := ds[|ds| - 1].1]
  }

  /** The keys of `LastWins(ds)` are the lower-cased names declared, and
      each maps to the value of the last declaration of that name. */
  lemma LastWinsMeaning(ds: seq<(string, string)>)
    ensures forall n :: n in LastWins(ds) <==> exists k :: 0 <= k < |ds| && Lower(ds[k].0) == n
    ensures forall k :: 0 <= k < |ds| && (forall l :: k < l < |ds| ==> Lower(ds[l].0) != Lower(ds[k].0)) ==>
      Lower(ds[k].0) in LastWins(ds) && LastWins(ds)[Lower(ds[k].0)] == ds[k].1
  {
    LastWinsKeys(ds);
    LastWinsValues(ds);
  }

  lemma {:induction false} LastWinsKeys(ds: seq<(string, string)>)
    ensures forall n :: n in LastWins(ds) <==> exists k :: 0 <= k < |ds| && Lower(ds[k].0) == n
  {
    if ds != [] {
      var p := ds[..|ds| - 1];
      LastWinsKeys(p);
      assert forall k :: 0 <= k < |p| ==> p[k] == ds[k];
      forall n | n in LastWins(ds)
        ensures exists k :: 0 <= k < |ds| && Lower(ds[k].0) == n
      {
        if n != Lower(ds[|ds| - 1].0) {
          assert n in LastWins(p);
          var k :| 0 <= k < |p| && Lower(p[k].0) == n;
          assert Lower(ds[k].0) == n;
        }
      }
    }
  }

  lemma {:induction false} LastWinsValues(ds: seq<(string, string)>)
    ensures forall k :: 0 <= k < |ds| && (forall l :: k < l < |ds| ==> Lower(ds[l].0) != Lower(ds[k].0)) ==>
      Lower(ds[k].0) in LastWins(ds) && LastWins(ds)[Lower(ds[k].0)] == ds[k].1
  {
    if ds != [] {
      var p := ds[..|ds| - 1];
      LastWinsValues(p);
      assert forall k :: 0 <= k < |p| ==> p[k] == ds[k];
    }
  }

  /** The pairs stored one after another, as the body loop stores them. */
  function StoreAll(acc: StyleMap, ds: seq<(string, string)>): StyleMap
    decreases |ds|
  {
    if ds == [] then acc else StoreAll(acc[Lower(ds[0].0) := ds[0].1], ds[1..])
  }

  lemma {:induction false} StoreAllSnoc(acc: StyleMap, ds: seq<(string, string)>, d: (string, string))
    ensures StoreAll(acc, ds + [d]) == StoreAll(acc, ds)[Lower(d.0) := d.1]
    decreases |ds|
  {
    if ds == [] {
      assert StoreAll(acc, [d]) == StoreAll(acc[Lower(d.0) := d.1], []);
    } else {
      assert (ds + [d])[1..] == ds[1..] + [d];
      StoreAllSnoc(acc[Lower(ds[0].0) := ds[0].1], ds[1..], d);
    }
  }

  lemma {:induction false} StoreAllIsLastWins(ds: seq<(string, string)>)
    ensures StoreAll(map[], ds) == LastWins(ds)
    decreases |ds|
  {
    if ds != [] {
      var p := ds[..|ds| - 1];
      StoreAllIsLastWins(p);
      assert ds == p + [ds[|ds| - 1]];
      StoreAllSnoc(map[], p, ds[|ds| - 1]);
    }
  }

  lemma LowerIdempotent(w: string)
    ensures Lower(Lower(w)) == Lower(w)
  {
  }

  /** `word()` at i reads exactly the n word characters there. */
  lemma WordAt(s: string, i: nat, n: nat)
    requires 0 < n && i + n < |s| && !IsWordChar(s[i + n])
    requires forall l :: i <= l < i + n ==> IsWordChar(s[l])
    ensures Word(s, i) == Done(s[i..i + n], i + n)
  {
  }

  /** The word w written at i, followed by a character that is not a word
      character. */
  lemma WordIs(s: string, i: nat, w: string)
    requires 0 < |w| && AllWordChars(w) && i + |w| < |s|
    requires s[i..i + |w|] == w && !IsWordChar(s[i + |w|])
    ensures forall l :: i <= l < i + |w| ==> IsWordChar(s[l])
    ensures Word(s, i) == Done(w, i + |w|)
  {
    assert forall l :: i <= l < i + |w| ==> s[l] == w[l - i];
    WordAt(s, i, |w|);
  }

  /** Text a + b at i: a at i and b right after it. */
  lemma SliceParts(s: string, i: nat, a: string, b: string)
    requires i + |a + b| <= |s| && s[i..i + |a + b|] == a + b
    ensures s[i..i + |a|] == a && s[i + |a|..i + |a| + |b|] == b
  {
    assert s[i..i + |a|] == s[i..i + |a + b|][..|a|];
    assert s[i + |a|..i + |a| + |b|] == s[i..i + |a + b|][|a|..];
  }

  /** `pair()` on `name:value` followed by a character that is not a word
      character. */
  lemma PairAt(s: string, i: nat, d: (string, string))
    requires 0 < |d.0| && AllWordChars(d.0) && 0 < |d.1| && AllWordChars(d.1)
    requires i + |d.0| + 1 + |d.1| < |s|
    requires s[i..i + |d.0|] == d.0 && s[i + |d.0|] == ':'
    requires s[i + |d.0| + 1..i + |d.0| + 1 + |d.1|] == d.1
    requires !IsWordChar(s[i + |d.0| + 1 + |d.1|])
    ensures Pair(s, i) == Done((Lower(d.0), d.1), i + |d.0| + 1 + |d.1|)
  {
    WordIs(s, i, d.0);
    ColonValueAt(s, i, i + |d.0|, d.1);
  }

  /** `:value` at c, after a name that starts at i. */
  lemma ColonValueAt(s: string, i: nat, c: nat, v: string)
    requires i <= c && 0 < |v| && AllWordChars(v) && c + 1 + |v| < |s|
    requires forall l :: i <= l < c ==> IsWordChar(s[l])
    requires s[c] == ':' && s[c + 1..c + 1 + |v|] == v && !IsWordChar(s[c + 1 + |v|])
    ensures ColonValue(s, i, c) == Done(v, c + 1 + |v|)
  {
    assert Whitespace(s, c) == c;
    assert s[c + 1] == s[c + 1..c + 1 + |v|][0];
    assert Whitespace(s, c + 1) == c + 1;
    WordIs(s, c + 1, v);
  }

  /** The pieces of `name:value;` written at i. */
  lemma WrittenAt(s: string, i: nat, d: (string, string))
    requires i + |Written(d)| <= |s| && s[i..i + |Written(d)|] == Written(d)
    ensures s[i..i + |d.0|] == d.0 && s[i + |d.0|] == ':'
    ensures s[i + |d.0| + 1..i + |d.0| + 1 + |d.1|] == d.1 && s[i + |d.0| + 1 + |d.1|] == ';'
  {
    var e := i + |d.0| + 1 + |d.1|;
    SliceParts(s, i, d.0 + ":" + d.1, ";");
    SliceParts(s, i, d.0 + ":", d.1);
    SliceParts(s, i, d.0, ":");
    assert s[e] == s[e..e + 1][0];
  }

  /** A pair read at i and a `;` right after it, followed by no white
      space: the body loop stores the pair and goes on after the `;`. */
  lemma PairThenSemicolon(s: string, i: nat, e: nat, p: (string, string), acc: StyleMap)
    requires i < |s| && s[i] != '}' && Pair(s, i) == Done(p, e)
    requires e < |s| && s[e] == ';' && (e + 1 == |s| || !IsSpace(s[e + 1]))
    ensures BodyFrom(s, i, acc) == BodyFrom(s, e + 1, StoreDeclaration(acc, p))
  {
    assert Whitespace(s, e) == e;
    assert Whitespace(s, e + 1) == e + 1;
  }

  lemma StoreLowered(acc: StyleMap, name: string, value: string)
    requires 0 < |name| && 0 < |value| && AllWordChars(value)
    ensures StoreDeclaration(acc, (Lower(name), value)) == acc[Lower(name) := value]
  {
    LowerIdempotent(name);
  }

  /** `name:value;` at i, followed by the end of the text or by no white
      space: the body loop stores the pair and goes on after the `;`. */
  lemma DeclarationAt(s: string, i: nat, d: (string, string), acc: StyleMap)
    requires 0 < |d.0| && AllWordChars(d.0) && 0 < |d.1| && AllWordChars(d.1)
    requires i + |Written(d)| <= |s| && s[i..i + |Written(d)|] == Written(d)
    requires i + |Written(d)| == |s| || !IsSpace(s[i + |Written(d)|])
    ensures BodyFrom(s, i, acc) == BodyFrom(s, i + |Written(d)|, acc[Lower(d.0) := d.1])
  {
    var e := i + |d.0| + 1 + |d.1|;
    WrittenAt(s, i, d);
    PairAt(s, i, d);
    assert s[i] == s[i..i + |d.0|][0];
    PairThenSemicolon(s, i, e, (Lower(d.0), d.1), acc);
    StoreLowered(acc, d.0, d.1);
  }

  /** The declarations ds written out one after another from i, each a
      non-empty name and value of word characters, then a `}` or the end of
      the text. */
  predicate DeclsAt(s: string, i: nat, ds: seq<(string, string)>)
    decreases |ds|
  {
    if ds == [] then i == |s| || (i < |s| && s[i] == '}')
    else
      && 0 < |ds[0].0| && AllWordChars(ds[0].0) && 0 < |ds[0].1| && AllWordChars(ds[0].1)
      && i + |Written(ds[0])| <= |s| && s[i..i + |Written(ds[0])|] == Written(ds[0])
      && DeclsAt(s, i + |Written(ds[0])|, ds[1..])
  }

  /** Where the declarations written from i end: at the `}` or the end of
      the text. */
  function EndOf(s: string, i: nat, ds: seq<(string, string)>): (r: nat)
    requires DeclsAt(s, i, ds)
    ensures i <= r <= |s| && (r == |s| || s[r] == '}')
    decreases |ds|
  {
    if ds == [] then i else EndOf(s, i + |Written(ds[0])|, ds[1..])
  }

  /** Declarations written from i start at the end of the text or with a
      character that is not white space. */
  lemma DeclsStart(s: string, i: nat, ds: seq<(string, string)>)
    requires DeclsAt(s, i, ds)
    ensures i <= |s| && (i == |s| || !IsSpace(s[i]))
  {
    if ds != [] {
      assert s[i] == s[i..i + |Written(ds[0])|][0] == ds[0].0[0];
      WordCharNotSpace(s[i]);
    }
  }

  /** The body loop stores the first declaration written at i. */
  lemma DeclStep(s: string, i: nat, ds: seq<(string, string)>, acc: StyleMap)
    requires ds != [] && DeclsAt(s, i, ds)
    ensures DeclsAt(s, i + |Written(ds[0])|, ds[1..])
    ensures EndOf(s, i, ds) == EndOf(s, i + |Written(ds[0])|, ds[1..])
    ensures StoreAll(acc, ds) == StoreAll(acc[Lower(ds[0].0) := ds[0].1], ds[1..])
    ensures BodyFrom(s, i, acc) == BodyFrom(s, i + |Written(ds[0])|, acc[Lower(ds[0].0) := ds[0].1])
  {
    DeclsStart(s, i + |Written(ds[0])|, ds[1..]);
    DeclarationAt(s, i, ds[0], acc);
  }

  /** Declarations written from i: the body loop stores them all in order
      and stops on the `}` after them, or at the end of the text. */
  lemma {:induction false} BodyFromDecls(s: string, i: nat, ds: seq<(string, string)>, acc: StyleMap)
    requires DeclsAt(s, i, ds)
    ensures BodyFrom(s, i, acc) == (StoreAll(acc, ds), EndOf(s, i, ds))
    decreases |ds|, 1
  {
    if ds == [] {
      BodyFromAtBrace(s, i, acc);
    } else {
      BodyFromDeclsCons(s, i, ds, acc);
    }
  }

  lemma {:induction false} BodyFromDeclsCons(s: string, i: nat, ds: seq<(string, string)>, acc: StyleMap)
    requires ds != [] && DeclsAt(s, i, ds)
    ensures BodyFrom(s, i, acc) == (StoreAll(acc, ds), EndOf(s, i, ds))
    decreases |ds|, 0
  {
    assert DeclsAt(s, i + |Written(ds[0])|, ds[1..]);
    BodyFromDecls(s, i + |Written(ds[0])|, ds[1..], acc[Lower(ds[0].0) := ds[0].1]);
    DeclStep(s, i, ds, acc);
  }

  /** A written-out block at i followed by `}` or by the end of the text is
      a run of declarations ending where the block ends. */
  lemma {:induction false} RenderedDecls(s: string, i: nat, ds: seq<(string, string)>)
    requires WellWritten(ds)
    requires i + |Render(ds)| <= |s| && s[i..i + |Render(ds)|] == Render(ds)
    requires i + |Render(ds)| == |s| || s[i + |Render(ds)|] == '}'
    ensures DeclsAt(s, i, ds) && EndOf(s, i, ds) == i + |Render(ds)|
    decreases |ds|
  {
    if ds != [] {
      var w, rest := Written(ds[0]), Render(ds[1..]);
      assert Render(ds) == w + rest;
      SliceParts(s, i, w, rest);
      assert WellWritten(ds[1..]) by {
        assert forall k :: 0 <= k < |ds| - 1 ==> ds[1..][k] == ds[k + 1];
      }
      RenderedDecls(s, i + |w|, ds[1..]);
    }
  }

  /** The body loop stops on a `}` or at the end without storing anything. */
  lemma BodyFromAtBrace(s: string, i: nat, acc: StyleMap)
    requires i == |s| || (i < |s| && s[i] == '}')
    ensures BodyFrom(s, i, acc) == (acc, i)
  {
  }

  /** `body()` on a written-out block closed by `}` reads up to that `}` and
      returns, for each lower-cased name, the value of its last
      declaration (see `LastWinsMeaning`). */
  lemma BodyOfRendered(ds: seq<(string, string)>)
    requires WellWritten(ds)
    ensures Body(Render(ds) + "}", 0) == (LastWins(ds), |Render(ds)|)
  {
    var s := Render(ds) + "}";
    assert s[0..|Render(ds)|] == Render(ds);
    RenderedDecls(s, 0, ds);
    BodyFromDecls(s, 0, ds, map[]);
    StoreAllIsLastWins(ds);
  }

  /** `body()` on a written-out block that runs to the end of the text, as
      an inline `style` attribute does (css.py:137-138), reads all of it and
      returns the reference reading. */
  lemma BodyOfRenderedText(ds: seq<(string, string)>)
    requires WellWritten(ds)
    ensures Body(Render(ds), 0) == (LastWins(ds), |Render(ds)|)
  {
    var s := Render(ds);
    assert s[0..|s|] == s;
    RenderedDecls(s, 0, ds);
    BodyFromDecls(s, 0, ds, map[]);
    StoreAllIsLastWins(ds);
  }
}

=== FILE: display.dfy ===
/** The drawing side of browser.py: the window constants, fonts as the
    layout sees them, the `DrawText`/`DrawRect` commands, and the culling and
    scroll arithmetic of `Browser.draw`, `scrollup` and `scrolldown`. The
    canvas itself is not modelled: `draw` yields the commands it would
    execute. */
module Display {
  const Width: real := 800.0
  const Height: real := 600.0
  const HStep: real := 13.0
  const VStep: real := 18.0
  const ScrollStep: real := 100.0

  type NonNeg = r: real | r >= 0.0

  /** The key `get_font` caches a font under; the size is kept as the
      `font-size` text it is computed from. */
  datatype Font = Font(size: string, weight: string, slant: string, family: string)

  datatype Metrics = Metrics(ascent: NonNeg, descent: NonNeg, linespace: NonNeg)

  /** The font services layout uses, `font.measure(text)` and
      `font.metrics()`, as fixed functions with non-negative results. */
  datatype Measure = Measure(width: (Font, string) -> NonNeg, metrics: Font -> Metrics)

  datatype Cmd =
    | DrawText(left: real, top: real, text: string, font: Font, color: string, bottom: real)
    | DrawRect(left: real, top: real, right: real, bottom: real, color: string)

  /** `DrawText(x1, y1, text, font, color)`: the bottom edge is one line
      space below the top (browser.py:298-307). */
  function MakeText(m: Measure, x: real, y: real, text: string, font: Font, color: string): (r: Cmd)
    ensures r.DrawText? && r.left == x && r.top == y && r.text == text && r.font == font && r.color == color
    ensures r.top <= r.bottom && r.bottom - r.top == m.metrics(font).linespace
  {
    DrawText(x, y, text, font, color, y + m.metrics(font).linespace)
  }

  /** The words a command list draws, in order; rectangles draw none. */
  function Texts(cmds: seq<Cmd>): (r: seq<string>)
    ensures |r| <= |cmds|
  {
    if cmds == [] then []
    else (if cmds[0].DrawText? then [cmds[0].text] else []) + Texts(cmds[1..])
  }

  lemma {:induction false} TextsAppend(a: seq<Cmd>, b: seq<Cmd>)
    ensures Texts(a + b) == Texts(a) + Texts(b)
  {
    if a == [] {
      assert a + b == b;
    } else {
      var head := if a[0].DrawText? then [a[0].text] else [];
      assert (a + b)[0] == a[0] && (a + b)[1..] == a[1..] + b;
      assert Texts(a + b) == head + Texts(a[1..] + b);
      TextsAppend(a[1..], b);
      assert Texts(a) == head + Texts(a[1..]);
    }
  }

  /** A list that extends another draws the other's words first. */
  lemma TextsPrefix(a: seq<Cmd>, b: seq<Cmd>)
    ensures a <= b ==> Texts(a) <= Texts(b)
  {
    if a <= b {
      assert b == a + b[|a|..];
      TextsAppend(a, b[|a|..]);
    }
  }

  /** The test of `draw()`: a command is skipped when its top is below the
      window or its bottom above it (browser.py:131-136). */
  predicate Visible(c: Cmd, scroll: real) {
    !(c.top > scroll + Height) && !(c.bottom < scroll)
  }

  /** The commands `draw()` executes, in display-list order. */
  function FilterVisible(cmds: seq<Cmd>, scroll: real): (r: seq<Cmd>)
    ensures |r| <= |cmds|
  {
    if cmds == [] then []
    else (if Visible(cmds[0], scroll) then [cmds[0]] else []) + FilterVisible(cmds[1..], scroll)
  }

  /** `draw()` executes exactly the visible commands of the list. */
  lemma {:induction false} FilterVisibleMembers(cmds: seq<Cmd>, scroll: real)
    ensures forall c :: c in FilterVisible(cmds, scroll) <==> c in cmds && Visible(c, scroll)
  {
    if cmds != [] {
      FilterVisibleMembers(cmds[1..], scroll);
      assert cmds == [cmds[0]] + cmds[1..];
    }
  }

  /** The loop of `draw()`. */
  method Draw(cmds: seq<Cmd>, scroll: real) returns (executed: seq<Cmd>)
    ensures executed == FilterVisible(cmds, scroll)
  {
    executed := [];
    var i := 0;
    while i < |cmds|
      invariant 0 <= i <= |cmds|
      invariant executed + FilterVisible(cmds[i..], scroll) == FilterVisible(cmds, scroll)
    {
      var cmd := cmds[i];
      FilterVisibleStep(cmds, i, scroll);
      if !(cmd.top > scroll + Height) && !(cmd.bottom < scroll) {
        executed := executed + [cmd];
      }
      i := i + 1;
    }
    assert cmds[i..] == [];
  }

  lemma FilterVisibleStep(cmds: seq<Cmd>, i: nat, scroll: real)
    requires i < |cmds|
    ensures FilterVisible(cmds[i..], scroll)
         == (if Visible(cmds[i], scroll) then [cmds[i]] else []) + FilterVisible(cmds[i + 1..], scroll)
  {
    assert cmds[i..][1..] == cmds[i + 1..];
  }

  /** `scrollup` (browser.py:97-98). */
  function ScrollUp(scroll: real): (r: real)
    ensures r >= 0.0
    ensures scroll >= ScrollStep ==> r == scroll - ScrollStep
    ensures scroll < ScrollStep ==> r == 0.0
  {
    if scroll - ScrollStep > 0.0 then scroll - ScrollStep else 0.0
  }

  /** `scrolldown` as written (browser.py:92-94): the bound is the
      document height less the window height, not clamped at zero. */
  function ScrollDown(scroll: real, docHeight: real): (r: real)
    ensures r <= scroll + ScrollStep && r <= docHeight - Height
    ensures r == scroll + ScrollStep || r == docHeight - Height
  {
    if scroll + ScrollStep < docHeight - Height then scroll + ScrollStep else docHeight - Height
  }

  /** On a document shorter than the window, scrolling down from the top
      moves the scroll position above the top of the page. */
  lemma ShortDocumentScrollsNegative(docHeight: real)
    requires docHeight < Height
    ensures ScrollDown(0.0, docHeight) < 0.0
  {
  }

  /** `scrolldown` with the bound clamped at zero. */
  function ScrollDownClamped(scroll: real, docHeight: real): (r: real)
    requires scroll >= 0.0
    ensures r >= 0.0
    ensures docHeight - Height >= 0.0 ==> r == ScrollDown(scroll, docHeight)
    ensures r <= scroll + ScrollStep
  {
    var maxY := if docHeight - Height > 0.0 then docHeight - Height else 0.0;
    if scroll + ScrollStep < maxY then scroll + ScrollStep else maxY
  }

  /** Scrolling with the clamped bound never leaves the page, whatever the
      document height, and scrolling up undoes a full step down. */
  lemma ScrollStaysOnPage(scroll: real, docHeight: real)
    requires scroll >= 0.0
    ensures ScrollDownClamped(scroll, docHeight) >= 0.0
    ensures ScrollUp(ScrollDownClamped(scroll, docHeight)) >= 0.0
    ensures ScrollDownClamped(scroll, docHeight) == scroll + ScrollStep ==>
      ScrollUp(ScrollDownClamped(scroll, docHeight)) == scroll
  {
  }
}

=== FILE: dom.dfy ===
/** The document tree of htmlparser.py (`Node`, `Text`, `Element`), stored in an
    arena: a node is referred to by its index, `parent` and `children` hold
    indices. Nodes are only ever appended, so a parent always has a smaller
    index than its children. The per-node `style` map is kept in a parallel
    sequence by the cascade (module Cascade), not in the node. */
module Dom {
  import opened Wrappers

  /** A node's `style` dictionary, and a parsed declaration block: property
      name to value. */
  type StyleMap = map<string, string>

  datatype Node =
    | Element(tag: string, attrs: map<string, Option<string>>, parent: Option<nat>, children: seq<nat>)
    | Text(text: string, parent: Option<nat>, children: seq<nat>)

  /** Node i agrees with its neighbours: its children point back to it, come
      after it and are listed once each in increasing order; it is listed among
      its parent's children; a Text node is a childless leaf with a parent. */
  predicate NodeOk(nodes: seq<Node>, i: nat)
    requires i < |nodes|
  {
    var n := nodes[i];
    && (forall k :: 0 <= k < |n.children| ==>
          i < n.children[k] < |nodes| && nodes[n.children[k]].parent == Some(i))
    && (forall k, l :: 0 <= k < l < |n.children| ==> n.children[k] < n.children[l])
    && (n.parent.Some? ==> n.parent.value < i && i in nodes[n.parent.value].children)
    && (n.Text? ==> n.children == [] && n.parent.Some?)
  }

  predicate WellFormed(nodes: seq<Node>) {
    forall i :: 0 <= i < |nodes| ==> NodeOk(nodes, i)
  }

  /** The strict ancestors of node i, nearest first (the chain that
      `while node.parent: node = node.parent` walks). */
  function Ancestors(nodes: seq<Node>, i: nat): (r: seq<nat>)
    requires WellFormed(nodes) && i < |nodes|
    ensures forall k :: 0 <= k < |r| ==> r[k] < i
    ensures nodes[i].parent.None? <==> r == []
    ensures nodes[i].parent.Some? ==> r[0] == nodes[i].parent.value
    decreases i
  {
    assert NodeOk(nodes, i);
    match nodes[i].parent
    case None => []
    case Some(p) => [p] + Ancestors(nodes, p)
  }

  /** Node j lies in the subtree rooted at r. */
  predicate InTree(nodes: seq<Node>, r: nat, j: nat)
    requires WellFormed(nodes) && j < |nodes|
  {
    j == r || r in Ancestors(nodes, j)
  }

  /** The ancestor chain is closed under taking parents. */
  lemma {:induction false} AncestorParent(nodes: seq<Node>, j: nat, a: nat)
    requires WellFormed(nodes) && j < |nodes|
    requires a in Ancestors(nodes, j)
    requires nodes[a].parent.Some?
    ensures nodes[a].parent.value in Ancestors(nodes, j)
    decreases j
  {
    var p := nodes[j].parent.value;
    if a != p {
      AncestorParent(nodes, p, a);
    }
  }

  /** A subtree is closed under descent: the subtree of a node of r's subtree
      lies inside r's subtree. */
  lemma {:induction false} InTreeTransitive(nodes: seq<Node>, r: nat, m: nat, j: nat)
    requires WellFormed(nodes) && m < |nodes| && j < |nodes|
    requires InTree(nodes, r, m) && InTree(nodes, m, j)
    ensures InTree(nodes, r, j)
    decreases j
  {
    if j != m && j != r {
      var p := nodes[j].parent.value;
      assert Ancestors(nodes, j) == [p] + Ancestors(nodes, p);
      if p != m {
        InTreeTransitive(nodes, r, m, p);
      }
    }
  }

  /** Every chain of parents ends at exactly one parentless node: two
      parentless nodes never have a common descendant. */
  lemma {:induction false} OneParentlessAncestor(nodes: seq<Node>, x: nat, y: nat, j: nat)
    requires WellFormed(nodes) && x < |nodes| && y < |nodes| && j < |nodes|
    requires nodes[x].parent.None? && nodes[y].parent.None?
    requires InTree(nodes, x, j) && InTree(nodes, y, j)
    ensures x == y
    decreases j
  {
    if nodes[j].parent.Some? {
      var p := nodes[j].parent.value;
      assert Ancestors(nodes, j) == [p] + Ancestors(nodes, p);
      OneParentlessAncestor(nodes, x, y, p);
    }
  }

  /** Node n with index c appended to its children. */
  function WithChild(n: Node, c: nat): (r: Node)
    ensures r.children == n.children + [c]
    ensures r.parent == n.parent && r.Element? == n.Element?
  {
    match n
    case Element(tag, attrs, parent, children) => Element(tag, attrs, parent, children + [c])
    case Text(text, parent, children) => Text(text, parent, children + [c])
  }

  /** Appends node n to the arena and, when n has a parent, appends its index
      to that parent's children: `parent.children.append(el)`. */
  function Attach(nodes: seq<Node>, n: Node): (r: seq<Node>)
    requires WellFormed(nodes)
    requires n.children == []
    requires n.parent.Some? ==> n.parent.value < |nodes| && nodes[n.parent.value].Element?
    requires n.Text? ==> n.parent.Some?
    ensures WellFormed(r)
    ensures |r| == |nodes| + 1 && r[|nodes|] == n
    ensures n.parent.Some? ==>
      r[n.parent.value] == WithChild(nodes[n.parent.value], |nodes|)
    ensures forall i :: 0 <= i < |nodes| && Some(i) != n.parent ==> r[i] == nodes[i]
  {
    var e := |nodes|;
    var r := match n.parent
      case None => nodes + [n]
      case Some(p) => nodes[p := WithChild(nodes[p], e)] + [n];
    forall i | 0 <= i < |r|
      ensures NodeOk(r, i)
    {
      AttachNodeOk(nodes, n, r, i);
    }
    r
  }

  /** Each node of the extended arena is consistent: the old nodes keep their
      links (the parent gains the new index as its last, largest child) and
      the new node is listed by its parent. */
  lemma AttachNodeOk(nodes: seq<Node>, n: Node, r: seq<Node>, i: nat)
    requires WellFormed(nodes)
    requires n.children == []
    requires n.parent.Some? ==> n.parent.value < |nodes| && nodes[n.parent.value].Element?
    requires n.Text? ==> n.parent.Some?
    requires |r| == |nodes| + 1 && r[|nodes|] == n
    requires n.parent.Some? ==> r[n.parent.value] == WithChild(nodes[n.parent.value], |nodes|)
    requires forall i :: 0 <= i < |nodes| && Some(i) != n.parent ==> r[i] == nodes[i]
    requires i < |r|
    ensures NodeOk(r, i)
  {
    var e := |nodes|;
    if i < e {
      assert NodeOk(nodes, i);
      var m := nodes[i];
      assert forall k :: 0 <= k < |m.children| ==> r[m.children[k]].parent == nodes[m.children[k]].parent;
      if m.parent.Some? {
        var q := m.parent.value;
        assert nodes[q].children <= r[q].children;
      }
    }
  }
}

=== FILE: htmlparser.dfy ===
/** The tree builder of htmlparser.py (`lex` and its `BrowserParser`
    callbacks). The stdlib tokenizer is not modelled: `Lex` consumes the
    sequence of callbacks it would make, as `Token`s. */
module HtmlParser {
  import opened Wrappers
  import opened Dom

  datatype Token =
    | StartTag(tag: string, attrs: seq<(string, Option<string>)>)
    | EndTag(tag: string)
    | Data(text: string)

  datatype LexError =
    | NoRoot        // "Did not get a root node"
    | PopFromEmpty  // `self.open.pop()` on an empty list raises IndexError

  /** The parser's state: the arena, the stack of open elements and the root. */
  datatype Builder = Builder(nodes: seq<Node>, open: seq<nat>, root: Option<nat>)

  /** The result of `lex`: the arena and the index of the root element. */
  datatype Tree = Tree(nodes: seq<Node>, root: nat)

  const VoidElementTags: set<string> := {
    "area", "base", "br", "col", "embed", "hr", "img", "input",
    "keygen", "link", "meta", "param", "source", "track", "wbr"
  }

  const Empty := Builder([], [], None)

  /** The builder's invariant: a well-formed arena whose first node is the
      root once there is one, and an open stack of non-void elements. */
  predicate Valid(b: Builder) {
    && WellFormed(b.nodes)
    && (b.root.None? <==> b.nodes == [])
    && (b.root.Some? ==> b.root.value == 0)
    && (forall k :: 0 <= k < |b.open| ==>
          b.open[k] < |b.nodes| && b.nodes[b.open[k]].Element? && b.nodes[b.open[k]].tag !in VoidElementTags)
  }

  /** Attribute list to dictionary, in list order (htmlparser.py:28-30). */
  function AttrMap(attrs: seq<(string, Option<string>)>): (r: map<string, Option<string>>)
    ensures forall k :: 0 <= k < |attrs| ==> attrs[k].0 in r
    ensures forall k :: 0 <= k < |attrs| && LastOccurrence(attrs, k) ==> r[attrs[k].0] == attrs[k].1
    decreases |attrs|
  {
    if attrs == [] then map[]
    else
      var init := attrs[..|attrs| - 1];
      var last := attrs[|attrs| - 1];
      assert forall k :: 0 <= k < |init| ==> init[k] == attrs[k];
      AttrMap(init)[last.0 := last.1]
  }

  /** Every key of the dictionary comes from the list, and its value from the
      key's last occurrence there. */
  lemma {:induction false} AttrMapKeyFrom(attrs: seq<(string, Option<string>)>, name: string) returns (k: nat)
    requires name in AttrMap(attrs)
    ensures k < |attrs| && attrs[k].0 == name && LastOccurrence(attrs, k)
    ensures AttrMap(attrs)[name] == attrs[k].1
    decreases |attrs|
  {
    var init := attrs[..|attrs| - 1];
    var last := attrs[|attrs| - 1];
    if last.0 == name {
      k := |attrs| - 1;
    } else {
      assert forall l :: 0 <= l < |init| ==> init[l] == attrs[l];
      k := AttrMapKeyFrom(init, name);
    }
  }

  /** No later entry of the list has the same name as entry k. */
  predicate LastOccurrence(attrs: seq<(string, Option<string>)>, k: nat)
    requires k < |attrs|
  {
    forall l :: k < l < |attrs| ==> attrs[l].0 != attrs[k].0
  }

  /** `handle_starttag`: a new element, attached under the top of the open
      stack when there is one, pushed unless void; the first one is the root. */
  function HandleStart(b: Builder, tag: string, attrs: seq<(string, Option<string>)>): (r: Builder)
    requires Valid(b)
    ensures Valid(r)
    ensures |r.nodes| == |b.nodes| + 1
    ensures r.nodes[|b.nodes|] == Element(tag, AttrMap(attrs), r.nodes[|b.nodes|].parent, [])
    ensures b.root.Some? ==> r.root == b.root
    ensures b.root.None? ==> r.root == Some(|b.nodes|)
    ensures b.open != [] ==>
      var top := b.open[|b.open| - 1];
      && r.nodes[|b.nodes|].parent == Some(top)
      && r.nodes[top] == WithChild(b.nodes[top], |b.nodes|)
    ensures b.open == [] ==> r.nodes[|b.nodes|].parent.None?
    ensures forall i :: 0 <= i < |b.nodes| && (b.open == [] || i != b.open[|b.open| - 1]) ==>
      r.nodes[i] == b.nodes[i]
    ensures tag in VoidElementTags ==> r.open == b.open
    ensures tag !in VoidElementTags ==> r.open == b.open + [|b.nodes|]
    ensures Grows(b.nodes, r.nodes)
  {
    var e := |b.nodes|;
    var parent := if b.open == [] then None else Some(b.open[|b.open| - 1]);
    var nodes := Attach(b.nodes, Element(tag, AttrMap(attrs), parent, []));
    var open := if tag in VoidElementTags then b.open else b.open + [e];
    Builder(nodes, open, if b.root.None? then Some(e) else b.root)
  }

  /** `handle_endtag`: a non-void end tag pops the top of the stack whatever
      its name; a void one is ignored. */
  function HandleEnd(b: Builder, tag: string): (r: Result<Builder, LexError>)
    requires Valid(b)
    ensures r.Ok? ==> Valid(r.value) && r.value.nodes == b.nodes && r.value.root == b.root
    ensures tag in VoidElementTags ==> r == Ok(b)
    ensures tag !in VoidElementTags && b.open == [] ==> r == Err(PopFromEmpty)
    ensures tag !in VoidElementTags && b.open != [] ==> r == Ok(b.(open := b.open[..|b.open| - 1]))
  {
    if tag in VoidElementTags then Ok(b)
    else if b.open == [] then Err(PopFromEmpty)
    else Ok(b.(open := b.open[..|b.open| - 1]))
  }

  /** An end tag undoes the push of the non-void start tag just before it,
      whatever the end tag's name: the open stack is as it was and the new
      element stays in the arena. */
  lemma EndUndoesStart(b: Builder, tag: string, attrs: seq<(string, Option<string>)>, end: string)
    requires Valid(b) && tag !in VoidElementTags && end !in VoidElementTags
    ensures HandleEnd(HandleStart(b, tag, attrs), end).Ok?
    ensures var r := HandleEnd(HandleStart(b, tag, attrs), end).value;
      r.open == b.open && r.nodes == HandleStart(b, tag, attrs).nodes
  {
    var s := HandleStart(b, tag, attrs);
    assert s.open[..|s.open| - 1] == b.open;
  }

  /** `handle_data`: text becomes the last child of the top of the stack, or
      is dropped when the stack is empty. */
  function HandleData(b: Builder, text: string): (r: Builder)
    requires Valid(b)
    ensures Valid(r)
    ensures r.open == b.open && r.root == b.root
    ensures b.open == [] ==> r == b
    ensures b.open != [] ==>
      var top := b.open[|b.open| - 1];
      && r.nodes == b.nodes[top := WithChild(b.nodes[top], |b.nodes|)] + [Text(text, Some(top), [])]
    ensures Grows(b.nodes, r.nodes)
  {
    if b.root.Some? && b.open != [] then
      var top := b.open[|b.open| - 1];
      b.(nodes := Attach(b.nodes, Text(text, Some(top), [])))
    else
      b
  }

  /** Node a and node b differ at most in their children, and b's children
      extend a's. */
  predicate SameButChildren(a: Node, b: Node) {
    match a
    case Element(tag, attrs, parent, children) =>
      b == Element(tag, attrs, parent, b.children) && children <= b.children
    case Text(text, parent, children) =>
      b == Text(text, parent, b.children) && children <= b.children
  }

  /** The arena only grows: existing nodes keep everything but gain children. */
  predicate Grows(a: seq<Node>, b: seq<Node>) {
    |a| <= |b| && forall i :: 0 <= i < |a| ==> SameButChildren(a[i], b[i])
  }

  function Step(b: Builder, t: Token): (r: Result<Builder, LexError>)
    requires Valid(b)
    ensures r.Ok? ==> Valid(r.value) && Grows(b.nodes, r.value.nodes)
    ensures r.Ok? && b.root.Some? ==> r.value.root == b.root
    ensures r.Err? ==> r.error == PopFromEmpty
  {
    match t
    case StartTag(tag, attrs) => Ok(HandleStart(b, tag, attrs))
    case EndTag(tag) => HandleEnd(b, tag)
    case Data(text) => Ok(HandleData(b, text))
  }

  /** `parser.feed(body)`: the callbacks in order; an exception stops it. */
  function Feed(b: Builder, ts: seq<Token>): (r: Result<Builder, LexError>)
    requires Valid(b)
    ensures r.Ok? ==> Valid(r.value) && Grows(b.nodes, r.value.nodes)
    ensures r.Ok? && b.root.Some? ==> r.value.root == b.root
    // the only exception a callback raises is the pop from an empty stack
    ensures r.Err? ==> r.error == PopFromEmpty
    decreases |ts|
  {
    if ts == [] then Ok(b)
    else
      var b' :- Step(b, ts[0]);
      Feed(b', ts[1..])
  }

  /** `lex(body)`: the root element, or an error when no start tag arrived. */
  function Lex(ts: seq<Token>): (r: Result<Tree, LexError>)
    ensures r.Ok? ==> WellFormed(r.value.nodes) && r.value.root == 0 < |r.value.nodes|
    ensures r.Ok? ==> r.value.nodes[0].Element? && r.value.nodes[0].parent.None?
  {
    var b :- Feed(Empty, ts);
    if b.root.None? then Err(NoRoot)
    else
      assert NodeOk(b.nodes, 0);
      Ok(Tree(b.nodes, b.root.value))
  }

  /** Index of the first start tag of the stream, if any. */
  function FirstStart(ts: seq<Token>): (r: Option<nat>)
    ensures r.Some? ==> r.value < |ts| && ts[r.value].StartTag?
    ensures r.Some? ==> forall k :: 0 <= k < r.value ==> !ts[k].StartTag?
    ensures r.None? ==> forall k :: 0 <= k < |ts| ==> !ts[k].StartTag?
    decreases |ts|
  {
    if ts == [] then None
    else if ts[0].StartTag? then Some(0)
    else match FirstStart(ts[1..])
      case None => None
      case Some(f) => Some(f + 1)
  }

  /** Before any start tag the builder stays empty (text is dropped, a void
      end tag is ignored) or fails on a non-void end tag. */
  lemma {:induction false} FeedFromEmpty(ts: seq<Token>)
    requires Feed(Empty, ts).Ok? && Feed(Empty, ts).value.root.Some?
    ensures FirstStart(ts).Some?
    ensures var f := FirstStart(ts).value;
            var root := Feed(Empty, ts).value.nodes[0];
            SameButChildren(Element(ts[f].tag, AttrMap(ts[f].attrs), None, []), root)
    decreases |ts|
  {
    match ts[0]
    case StartTag(tag, attrs) =>
      var b1 := HandleStart(Empty, tag, attrs);
      assert Feed(Empty, ts) == Feed(b1, ts[1..]);
    case EndTag(tag) =>
      assert Step(Empty, ts[0]) == Ok(Empty);
      assert Feed(Empty, ts) == Feed(Empty, ts[1..]);
      FeedFromEmpty(ts[1..]);
    case Data(text) =>
      assert Step(Empty, ts[0]) == Ok(Empty);
      assert Feed(Empty, ts) == Feed(Empty, ts[1..]);
      FeedFromEmpty(ts[1..]);
  }

  /** The element built for the first start tag is the root that `lex`
      returns, with that tag's name and attributes; later start tags never
      replace it (htmlparser.py:68-69, 95). */
  lemma RootIsFirstStartTag(ts: seq<Token>)
    requires Lex(ts).Ok?
    ensures FirstStart(ts).Some?
    ensures var f := FirstStart(ts).value;
            var t := Lex(ts).value;
            && t.nodes[t.root].Element?
            && t.nodes[t.root].tag == ts[f].tag
            && t.nodes[t.root].attrs == AttrMap(ts[f].attrs)
            && t.nodes[t.root].parent.None?
  {
    FeedFromEmpty(ts);
  }

  /** Without a start tag the builder never gets a root. */
  lemma {:induction false} FeedWithoutStartStaysEmpty(ts: seq<Token>)
    requires forall k :: 0 <= k < |ts| ==> !ts[k].StartTag?
    ensures Feed(Empty, ts).Ok? ==> Feed(Empty, ts).value == Empty
    decreases |ts|
  {
    if ts != [] {
      if ts[0].EndTag? && ts[0].tag !in VoidElementTags {
        assert Feed(Empty, ts) == Err(PopFromEmpty);
      } else {
        assert Step(Empty, ts[0]) == Ok(Empty);
        assert Feed(Empty, ts) == Feed(Empty, ts[1..]);
        FeedWithoutStartStaysEmpty(ts[1..]);
      }
    }
  }

  /** Input with no start tag yields no tree (htmlparser.py:93-94); when it
      has no stray non-void end tag either, the error is the missing root. */
  lemma NoStartTagNoTree(ts: seq<Token>)
    requires forall k :: 0 <= k < |ts| ==> !ts[k].StartTag?
    ensures Lex(ts).Err?
    ensures (forall k :: 0 <= k < |ts| ==> ts[k].EndTag? ==> ts[k].tag in VoidElementTags) ==>
      Lex(ts) == Err(NoRoot)
  {
    FeedWithoutStartStaysEmpty(ts);
    if forall k :: 0 <= k < |ts| ==> ts[k].EndTag? ==> ts[k].tag in VoidElementTags {
      NoPopWithoutEndTags(ts);
    }
  }

  lemma {:induction false} NoPopWithoutEndTags(ts: seq<Token>)
    requires forall k :: 0 <= k < |ts| ==> !ts[k].StartTag?
    requires forall k :: 0 <= k < |ts| ==> ts[k].EndTag? ==> ts[k].tag in VoidElementTags
    ensures Feed(Empty, ts) == Ok(Empty)
    decreases |ts|
  {
    if ts != [] {
      assert Step(Empty, ts[0]) == Ok(Empty);
      assert Feed(Empty, ts) == Feed(Empty, ts[1..]);
      NoPopWithoutEndTags(ts[1..]);
    }
  }

  /** A feed from the empty builder that succeeds without a root saw no
      start tag and no non-void end tag. */
  lemma {:induction false} EmptyFeedTokens(ts: seq<Token>)
    requires Feed(Empty, ts).Ok? && Feed(Empty, ts).value.root.None?
    ensures forall k :: 0 <= k < |ts| ==> !ts[k].StartTag? && (ts[k].EndTag? ==> ts[k].tag in VoidElementTags)
    decreases |ts|
  {
    if ts != [] {
      match ts[0]
      case StartTag(tag, attrs) =>
        assert false;
      case EndTag(tag) =>
        assert tag in VoidElementTags;
        assert Feed(Empty, ts) == Feed(Empty, ts[1..]);
        EmptyFeedTokens(ts[1..]);
        assert forall k :: 1 <= k < |ts| ==> ts[k] == ts[1..][k - 1];
      case Data(text) =>
        assert Feed(Empty, ts) == Feed(Empty, ts[1..]);
        EmptyFeedTokens(ts[1..]);
        assert forall k :: 1 <= k < |ts| ==> ts[k] == ts[1..][k - 1];
    }
  }

  /** `lex` reports the missing root (htmlparser.py:93-94) exactly when the
      stream has no start tag and no non-void end tag; a start tag yields a
      tree or, when an end tag pops the empty stack first, that error. */
  lemma LexNoRootIff(ts: seq<Token>)
    ensures Lex(ts) == Err(NoRoot) <==>
      forall k :: 0 <= k < |ts| ==> !ts[k].StartTag? && (ts[k].EndTag? ==> ts[k].tag in VoidElementTags)
  {
    if Lex(ts) == Err(NoRoot) {
      EmptyFeedTokens(ts);
    }
    if forall k :: 0 <= k < |ts| ==> !ts[k].StartTag? && (ts[k].EndTag? ==> ts[k].tag in VoidElementTags) {
      NoStartTagNoTree(ts);
    }
  }

  /** A start tag that arrives after the open stack has emptied is attached
      to no parent; neither it nor anything later placed under it is in the
      root's subtree (htmlparser.py:68-78). */
  lemma DetachedStartUnreachable(b: Builder, tag: string, attrs: seq<(string, Option<string>)>,
                                 later: seq<Node>, j: nat)
    requires Valid(b) && b.root.Some? && b.open == []
    requires Grows(HandleStart(b, tag, attrs).nodes, later) && WellFormed(later)
    requires j < |later| && InTree(later, |b.nodes|, j)
    ensures !InTree(later, 0, j)
  {
    var e := |b.nodes|;
    var r := HandleStart(b, tag, attrs);
    assert SameButChildren(r.nodes[e], later[e]);
    assert SameButChildren(r.nodes[0], later[0]);
    assert NodeOk(b.nodes, 0);
    if InTree(later, 0, j) {
      OneParentlessAncestor(later, 0, e, j);
    }
  }

  /** A void element followed by `</p>` pops the enclosing `p`, not the
      never-pushed `img`. */
  lemma VoidElementIsNotPopped()
    ensures var ts := [StartTag("p", []), StartTag("img", []), EndTag("p")];
            Feed(Empty, ts).Ok? && Feed(Empty, ts).value.open == []
            && Feed(Empty, ts).value.nodes[0].children == [1]
  {
    var b1 := HandleStart(Empty, "p", []);
    var b2 := HandleStart(b1, "img", []);
    assert b2.open == [0];
    var ts := [StartTag("p", []), StartTag("img", []), EndTag("p")];
    assert Feed(Empty, ts) == Feed(b1, ts[1..]);
    assert Feed(b1, ts[1..]) == Feed(b2, ts[2..]);
    assert Feed(b2, ts[2..]) == Feed(b2.(open := []), []);
  }

  /** A stray end tag after the root has closed pops an empty stack. */
  lemma StrayEndTagFails()
    ensures Lex([StartTag("p", []), EndTag("p"), EndTag("div")]) == Err(PopFromEmpty)
  {
    StrayFeed();
  }

  lemma StrayFeed()
    ensures Feed(Empty, [StartTag("p", []), EndTag("p"), EndTag("div")]) == Err(PopFromEmpty)
  {
    var ts := [StartTag("p", []), EndTag("p"), EndTag("div")];
    var b1 := NestedBuilder(0);
    NestedStep1();
    FeedCons(Empty, ts, b1);
    assert b1.open[..|b1.open| - 1] == [];
    var b2 := b1.(open := []);
    FeedCons(b1, ts[1..], b2);
    assert ts[1..][1..] == [EndTag("div")];
    assert Step(b2, EndTag("div")) == Err(PopFromEmpty);
  }

  /** `<p>hello <b>world</b></p>` yields, in arena (document) order,
      p, "hello ", b, "world", each linked to its parent. */
  lemma NestedDocument()
    ensures Lex([StartTag("p", []), Data("hello "), StartTag("b", []), Data("world"), EndTag("b"), EndTag("p")])
         == Ok(Tree([Element("p", map[], None, [1, 2]), Text("hello ", Some(0), []),
                     Element("b", map[], Some(0), [3]), Text("world", Some(2), [])], 0))
  {
    NestedFeed();
  }

  lemma NestedFeed()
    ensures Feed(Empty, NestedTokens) == Ok(NestedBuilder(3).(open := []))
  {
    NestedFeedHead();
    NestedFeedTail();
  }

  const NestedTokens: seq<Token> :=
    [StartTag("p", []), Data("hello "), StartTag("b", []), Data("world"), EndTag("b"), EndTag("p")]

  /** The builder after the first 1 + k tokens of `NestedTokens`, k < 4. */
  function NestedBuilder(k: nat): Builder
  {
    if k == 0 then Builder([Element("p", map[], None, [])], [0], Some(0))
    else if k == 1 then Builder([Element("p", map[], None, [1]), HelloText], [0], Some(0))
    else if k == 2 then
      Builder([Element("p", map[], None, [1, 2]), HelloText, Element("b", map[], Some(0), [])], [0, 2], Some(0))
    else
      Builder([Element("p", map[], None, [1, 2]), HelloText,
               Element("b", map[], Some(0), [3]), Text("world", Some(2), [])], [0, 2], Some(0))
  }

  lemma NestedFeedHead()
    ensures Valid(NestedBuilder(2))
    ensures Feed(Empty, NestedTokens) == Feed(NestedBuilder(2), NestedTokens[3..])
  {
    var ts := NestedTokens;
    NestedStep1(); NestedStep2(); NestedStep3();
    FeedCons(Empty, ts, NestedBuilder(0));
    FeedCons(NestedBuilder(0), ts[1..], NestedBuilder(1));
    assert ts[1..][1..] == ts[2..];
    FeedCons(NestedBuilder(1), ts[2..], NestedBuilder(2));
    assert ts[2..][1..] == ts[3..];
  }

  lemma NestedFeedTail()
    requires Valid(NestedBuilder(2))
    ensures Feed(NestedBuilder(2), NestedTokens[3..]) == Ok(NestedBuilder(3).(open := []))
  {
    var ts := NestedTokens[3..];
    var b4 := NestedBuilder(3);
    NestedStep4();
    FeedCons(NestedBuilder(2), ts, b4);
    assert b4.open[..|b4.open| - 1] == [0];
    FeedCons(b4, ts[1..], b4.(open := [0]));
    assert ts[1..][1..] == [EndTag("p")];
    FeedCons(b4.(open := [0]), [EndTag("p")], b4.(open := []));
    assert [EndTag("p")][1..] == [];
  }

  /** A step that succeeds hands the rest of the stream to the new builder. */
  lemma FeedCons(b: Builder, ts: seq<Token>, b': Builder)
    requires Valid(b) && ts != [] && Step(b, ts[0]) == Ok(b')
    ensures Feed(b, ts) == Feed(b', ts[1..])
  {
  }

  const HelloText := Text("hello ", Some(0), [])

  lemma NestedStep1()
    ensures HandleStart(Empty, "p", []) == Builder([Element("p", map[], None, [])], [0], Some(0))
  {
    var r := HandleStart(Empty, "p", []);
    assert r.nodes[0] == Element("p", map[], None, []);
  }

  lemma NestedStep2()
    ensures HandleData(Builder([Element("p", map[], None, [])], [0], Some(0)), "hello ")
         == Builder([Element("p", map[], None, [1]), HelloText], [0], Some(0))
  {
    var r := HandleData(Builder([Element("p", map[], None, [])], [0], Some(0)), "hello ");
    assert WithChild(Element("p", map[], None, []), 1) == Element("p", map[], None, [1]);
    assert r.nodes[0] == Element("p", map[], None, [1]);
    assert r.nodes[1] == HelloText;
  }

  lemma NestedStep3()
    ensures HandleStart(Builder([Element("p", map[], None, [1]), HelloText], [0], Some(0)), "b", [])
         == Builder([Element("p", map[], None, [1, 2]), HelloText, Element("b", map[], Some(0), [])], [0, 2], Some(0))
  {
    var b := Builder([Element("p", map[], None, [1]), HelloText], [0], Some(0));
    assert NodeOk(b.nodes, 0) && NodeOk(b.nodes, 1);
    var r := HandleStart(b, "b", []);
    assert WithChild(b.nodes[0], 2) == Element("p", map[], None, [1, 2]);
    assert AttrMap([]) == map[];
    assert r.nodes[0] == Element("p", map[], None, [1, 2]);
    assert r.nodes[1] == HelloText;
    assert r.nodes[2] == Element("b", map[], Some(0), []);
  }

  lemma NestedStep4()
    ensures HandleData(Builder([Element("p", map[], None, [1, 2]), HelloText, Element("b", map[], Some(0), [])], [0, 2], Some(0)), "world")
         == Builder([Element("p", map[], None, [1, 2]), HelloText,
                     Element("b", map[], Some(0), [3]), Text("world", Some(2), [])], [0, 2], Some(0))
  {
    var b := Builder([Element("p", map[], None, [1, 2]), HelloText, Element("b", map[], Some(0), [])], [0, 2], Some(0));
    assert NodeOk(b.nodes, 0) && NodeOk(b.nodes, 1) && NodeOk(b.nodes, 2);
    var r := HandleData(b, "world");
    assert WithChild(b.nodes[2], 3) == Element("b", map[], Some(0), [3]);
    assert r.nodes[0] == b.nodes[0];
    assert r.nodes[1] == HelloText;
    assert r.nodes[2] == Element("b", map[], Some(0), [3]);
    assert r.nodes[3] == Text("world", Some(2), []);
  }
}

=== FILE: layout.dfy ===
/** Block and inline layout and painting of browser.py: `layout_mode`,
    `BlockLayout.layout`, `recurse`, `paint` and `DocumentLayout`
    (browser.py:139-251). A layout box is a value: the node it lays out,
    its geometry, its child boxes (block mode) and its own display list
    (inline mode). The style of node j is `styles[j]`, as the cascade
    computes it. */
module Layout {
  import opened Wrappers
  import opened Dom
  import opened Display
  import opened Lines

  /** `BLOCK_ELEMENTS` (browser.py:22-60). */
  const BlockElements: set<string> := {
    "html", "body", "article", "section", "nav", "aside",
    "h1", "h2", "h3", "h4", "h5", "h6", "hgroup", "header", "footer", "address",
    "p", "hr", "pre", "blockquote", "ol", "ul", "menu", "li", "dl", "dt", "dd",
    "figure", "figcaption", "main", "div", "table", "form", "fieldset", "legend",
    "details", "summary"
  }

  datatype Mode = Block | Inline

  predicate IsBlockElement(n: Node) {
    n.Element? && n.tag in BlockElements
  }

  /** The `any([...])` of `layout_mode` over the child list. */
  function AnyBlockChild(nodes: seq<Node>, cs: seq<nat>): bool
    requires forall k :: 0 <= k < |cs| ==> cs[k] < |nodes|
  {
    if cs == [] then false
    else IsBlockElement(nodes[cs[0]]) || AnyBlockChild(nodes, cs[1..])
  }

  lemma {:induction false} AnyBlockChildIff(nodes: seq<Node>, cs: seq<nat>)
    requires forall k :: 0 <= k < |cs| ==> cs[k] < |nodes|
    ensures AnyBlockChild(nodes, cs) <==> exists k :: 0 <= k < |cs| && IsBlockElement(nodes[cs[k]])
  {
    if cs != [] {
      AnyBlockChildIff(nodes, cs[1..]);
      assert forall k :: 1 <= k < |cs| ==> cs[k] == cs[1..][k - 1];
      if AnyBlockChild(nodes, cs[1..]) {
        var k :| 0 <= k < |cs[1..]| && IsBlockElement(nodes[cs[1..][k]]);
        assert IsBlockElement(nodes[cs[k + 1]]);
      }
    }
  }

  /** `layout_mode(node)` (browser.py:139-151). */
  function LayoutMode(nodes: seq<Node>, i: nat): (r: Mode)
    requires WellFormed(nodes) && i < |nodes|
  {
    assert NodeOk(nodes, i);
    match nodes[i]
    case Text(_, _, _) => Inline
    case Element(_, _, _, children) =>
      if children != [] then (if AnyBlockChild(nodes, children) then Block else Inline)
      else Block
  }

  /** A Text node is inline; an element is laid out in block mode exactly
      when it has no children or one of its children is a block element. */
  lemma LayoutModeIff(nodes: seq<Node>, i: nat)
    requires WellFormed(nodes) && i < |nodes|
    ensures nodes[i].Text? ==> LayoutMode(nodes, i) == Inline
    ensures LayoutMode(nodes, i) == Block <==>
      && nodes[i].Element?
      && (|| nodes[i].children == []
          || exists k :: 0 <= k < |nodes[i].children| && nodes[i].children[k] < |nodes|
                            && IsBlockElement(nodes[nodes[i].children[k]]))
  {
    assert NodeOk(nodes, i);
    if nodes[i].Element? {
      AnyBlockChildIff(nodes, nodes[i].children);
    }
  }

  // ---------------------------------------------------------------------
  // what layout needs from the tree

  /** The number of words `split()` finds in the Text nodes of j's subtree. */
  function TotalWords(nodes: seq<Node>, j: nat): nat
    requires WellFormed(nodes) && j < |nodes|
    decreases |nodes| - j, |nodes[j].children| + 1
  {
    match nodes[j]
    case Text(text, _, _) => |Words(text)|
    case Element(_, _, _, _) => KidsWords(nodes, j, 0)
  }

  function KidsWords(nodes: seq<Node>, j: nat, k: nat): nat
    requires WellFormed(nodes) && j < |nodes| && k <= |nodes[j].children|
    decreases |nodes| - j, |nodes[j].children| - k
  {
    if k == |nodes[j].children| then 0
    else
      assert NodeOk(nodes, j);
      TotalWords(nodes, nodes[j].children[k]) + KidsWords(nodes, j, k + 1)
  }

  /** The words `split()` finds in the Text nodes of j's subtree, in
      document order. */
  function SubtreeWords(nodes: seq<Node>, j: nat): (r: seq<string>)
    requires WellFormed(nodes) && j < |nodes|
    ensures |r| == TotalWords(nodes, j)
    decreases |nodes| - j, |nodes[j].children| + 1
  {
    match nodes[j]
    case Text(text, _, _) => Words(text)
    case Element(_, _, _, _) => KidsSubtreeWords(nodes, j, 0)
  }

  function KidsSubtreeWords(nodes: seq<Node>, j: nat, k: nat): (r: seq<string>)
    requires WellFormed(nodes) && j < |nodes| && k <= |nodes[j].children|
    ensures |r| == KidsWords(nodes, j, k)
    decreases |nodes| - j, |nodes[j].children| - k
  {
    if k == |nodes[j].children| then []
    else
      assert NodeOk(nodes, j);
      SubtreeWords(nodes, nodes[j].children[k]) + KidsSubtreeWords(nodes, j, k + 1)
  }

  /** Every Text node of j's subtree has a parent whose style holds the keys
      `text()` reads, so no lookup raises. */
  predicate FontsResolve(nodes: seq<Node>, styles: seq<StyleMap>, j: nat)
    requires WellFormed(nodes) && |styles| == |nodes| && j < |nodes|
    decreases |nodes| - j, |nodes[j].children| + 1
  {
    assert NodeOk(nodes, j);
    match nodes[j]
    case Text(_, parent, _) => FontFor(styles[parent.value]).Ok?
    case Element(_, _, _, _) => KidsFontsResolve(nodes, styles, j, 0)
  }

  predicate KidsFontsResolve(nodes: seq<Node>, styles: seq<StyleMap>, j: nat, k: nat)
    requires WellFormed(nodes) && |styles| == |nodes| && j < |nodes| && k <= |nodes[j].children|
    decreases |nodes| - j, |nodes[j].children| - k
  {
    if k == |nodes[j].children| then true
    else
      assert NodeOk(nodes, j);
      FontsResolve(nodes, styles, nodes[j].children[k]) && KidsFontsResolve(nodes, styles, j, k + 1)
  }

  // ---------------------------------------------------------------------
  // inline mode: `recurse`

  /** `recurse(tree)` (browser.py:253-260): a Text node is set with its
      parent's style, an element's children are visited in order, and a
      `br` flushes the line first. Every word of the subtree ends up on the
      line or in the output, and the cursor never moves up. */
  function Recurse(nodes: seq<Node>, styles: seq<StyleMap>, m: Measure, j: nat,
                   st: LineState, x: real, y: real, width: real): (r: Result<LineState, StyleError>)
    requires WellFormed(nodes) && |styles| == |nodes| && j < |nodes|
    ensures r.Ok? <==> FontsResolve(nodes, styles, j)
    ensures r.Ok? ==> st.out <= r.value.out && r.value.cursorY >= st.cursorY
    ensures r.Ok? ==> |r.value.out| + |r.value.line| == |st.out| + |st.line| + TotalWords(nodes, j)
    // the subtree's words follow the words set before, in document order
    ensures r.Ok? ==> Emitted(r.value) == Emitted(st) + SubtreeWords(nodes, j)
    // a `br` sends every word set before it to the output: none shares a
    // line with the words inside or after it
    ensures r.Ok? && nodes[j].Element? && nodes[j].tag == "br" ==> Emitted(st) <= Texts(r.value.out)
    // the flush happens before the children: its commands, with the earlier
    // words at their places, open what the element leaves in the output
    ensures r.Ok? && nodes[j].Element? && nodes[j].tag == "br" ==> Flush(st, m, x, y).out <= r.value.out
    decreases |nodes| - j, |nodes[j].children| + 1
  {
    assert NodeOk(nodes, j);
    match nodes[j]
    case Text(text, parent, _) => TextRun(st, text, styles[parent.value], m, x, y, width)
    case Element(tag, _, _, _) =>
      FlushKeepsWords(st, m, x, y);
      var st' := if tag == "br" then Flush(st, m, x, y) else st;
      var r := RecurseKids(nodes, styles, m, j, 0, st', x, y, width);
      if r.Ok? then TextsPrefix(st'.out, r.value.out); r else r
  }

  /** The loop `for child in tree.children: self.recurse(child)`. */
  function RecurseKids(nodes: seq<Node>, styles: seq<StyleMap>, m: Measure, j: nat, k: nat,
                       st: LineState, x: real, y: real, width: real): (r: Result<LineState, StyleError>)
    requires WellFormed(nodes) && |styles| == |nodes| && j < |nodes| && k <= |nodes[j].children|
    ensures r.Ok? <==> KidsFontsResolve(nodes, styles, j, k)
    ensures r.Ok? ==> st.out <= r.value.out && r.value.cursorY >= st.cursorY
    ensures r.Ok? ==> |r.value.out| + |r.value.line| == |st.out| + |st.line| + KidsWords(nodes, j, k)
    ensures r.Ok? ==> Emitted(r.value) == Emitted(st) + KidsSubtreeWords(nodes, j, k)
    decreases |nodes| - j, |nodes[j].children| - k
  {
    if k == |nodes[j].children| then Ok(st)
    else
      assert NodeOk(nodes, j);
      var st' :- Recurse(nodes, styles, m, nodes[j].children[k], st, x, y, width);
      var r := RecurseKids(nodes, styles, m, j, k + 1, st', x, y, width);
      if r.Ok? then
        EmittedChain(st, st', r.value, SubtreeWords(nodes, nodes[j].children[k]), KidsSubtreeWords(nodes, j, k + 1));
        r
      else r
  }


  // ---------------------------------------------------------------------
  // boxes

  /** A `BlockLayout` after `layout()`. */
  datatype Box = Box(node: nat, x: real, y: real, width: real, height: real,
                     children: seq<Box>, texts: seq<Cmd>)

  function TotalHeight(bs: seq<Box>): real
  {
    if bs == [] then 0.0 else bs[0].height + TotalHeight(bs[1..])
  }

  /** The words a box and its descendants paint. */
  function TextCount(b: Box): nat
    decreases b
  {
    |b.texts| + TextCountAll(b.children)
  }

  function TextCountAll(bs: seq<Box>): nat
    decreases bs
  {
    if bs == [] then 0 else TextCount(bs[0]) + TextCountAll(bs[1..])
  }

  /** Sibling boxes placed one below the other from `y`: each starts where
      the boxes before it end. */
  predicate Stacked(bs: seq<Box>, y: real) {
    forall l :: 0 <= l < |bs| ==> bs[l].y == y + TotalHeight(bs[..l])
  }

  /** Every box of the tree lays out a node below `n`. */
  predicate Within(b: Box, n: nat)
    decreases b
  {
    b.node < n && forall k :: 0 <= k < |b.children| ==> Within(b.children[k], n)
  }

  /** The boxes lay out the nodes `cs`, one each and in order, all at `x`
      with width `width`, with non-negative heights. */
  predicate Placed(bs: seq<Box>, cs: seq<nat>, x: real, width: real, n: nat) {
    && |bs| == |cs|
    && forall l :: 0 <= l < |bs| ==>
         && bs[l].node == cs[l] && bs[l].x == x && bs[l].width == width
         && bs[l].height >= 0.0 && Within(bs[l], n)
  }

  lemma PlacedCons(b: Box, rest: seq<Box>, cs: seq<nat>, x: real, width: real, n: nat)
    requires cs != [] && b.node == cs[0] && b.x == x && b.width == width && b.height >= 0.0 && Within(b, n)
    requires Placed(rest, cs[1..], x, width, n)
    ensures Placed([b] + rest, cs, x, width, n)
  {
  }

  lemma TotalHeightCons(b: Box, bs: seq<Box>)
    ensures TotalHeight([b] + bs) == b.height + TotalHeight(bs)
    ensures TextCountAll([b] + bs) == TextCount(b) + TextCountAll(bs)
  {
    assert ([b] + bs)[1..] == bs;
  }

  lemma StackCons(b: Box, rest: seq<Box>, y: real)
    requires b.y == y && Stacked(rest, y + b.height)
    ensures Stacked([b] + rest, y)
  {
    var bs := [b] + rest;
    forall l | 0 <= l < |bs|
      ensures bs[l].y == y + TotalHeight(bs[..l])
    {
      if l == 0 {
        assert bs[..0] == [];
      } else {
        assert bs[..l] == [b] + rest[..l - 1];
        TotalHeightCons(b, rest[..l - 1]);
      }
    }
  }

  // ---------------------------------------------------------------------
  // `BlockLayout.layout`

  /** `BlockLayout(node).layout()` with x, y and width already taken from
      the parent and the previous sibling (browser.py:227-251). In block
      mode one box is made per child node and the boxes are stacked; in
      inline mode the subtree's words are set on lines and the height is
      where the cursor ends. A style lookup that raises stops the layout. */
  function LayoutBlock(nodes: seq<Node>, styles: seq<StyleMap>, m: Measure, i: nat,
                       x: real, y: real, width: real): (r: Result<Box, StyleError>)
    requires WellFormed(nodes) && |styles| == |nodes| && i < |nodes|
    ensures r.Ok? <==> FontsResolve(nodes, styles, i)
    ensures r.Ok? ==>
      && r.value.node == i && r.value.x == x && r.value.y == y && r.value.width == width
      && r.value.height >= 0.0 && Within(r.value, |nodes|)
      && TextCount(r.value) == TotalWords(nodes, i)
    // painting the box draws the subtree's words in document order
    ensures r.Ok? ==> Texts(Paint(r.value, styles)) == SubtreeWords(nodes, i)
    ensures r.Ok? && LayoutMode(nodes, i) == Block ==>
      && r.value.texts == []
      && Placed(r.value.children, nodes[i].children, x, width, |nodes|)
      && Stacked(r.value.children, y)
      && r.value.height == TotalHeight(r.value.children)
    ensures r.Ok? && LayoutMode(nodes, i) == Inline ==> r.value.children == []
    decreases |nodes| - i, |nodes[i].children| + 2
  {
    if LayoutMode(nodes, i) == Block then BlockModeLayout(nodes, styles, m, i, x, y, width)
    else InlineModeLayout(nodes, styles, m, i, x, y, width)
  }

  /** What every laid-out box of node i at (x, y) with width `width`
      promises: its geometry, that its tree stays within the arena, and that
      it paints the words of i's subtree, one command each, in document
      order. */
  predicate LaysOut(nodes: seq<Node>, styles: seq<StyleMap>, i: nat, x: real, y: real, width: real, b: Box)
    requires WellFormed(nodes) && |styles| == |nodes| && i < |nodes|
  {
    && b.node == i && b.x == x && b.y == y && b.width == width
    && b.height >= 0.0 && Within(b, |nodes|)
    && TextCount(b) == TotalWords(nodes, i)
    && Texts(Paint(b, styles)) == SubtreeWords(nodes, i)
  }

  /** The block-mode branch of `layout()` (browser.py:236-246). */
  function BlockModeLayout(nodes: seq<Node>, styles: seq<StyleMap>, m: Measure, i: nat,
                           x: real, y: real, width: real): (r: Result<Box, StyleError>)
    requires WellFormed(nodes) && |styles| == |nodes| && i < |nodes| && LayoutMode(nodes, i) == Block
    ensures r.Ok? <==> FontsResolve(nodes, styles, i)
    ensures r.Ok? ==> LaysOut(nodes, styles, i, x, y, width, r.value)
    ensures r.Ok? ==>
      && r.value.texts == []
      && Placed(r.value.children, nodes[i].children, x, width, |nodes|)
      && Stacked(r.value.children, y)
      && r.value.height == TotalHeight(r.value.children)
    decreases |nodes| - i, |nodes[i].children| + 1
  {
    assert NodeOk(nodes, i);
    var kids :- LayoutKids(nodes, styles, m, i, 0, x, y, width);
    assert nodes[i].children[0..] == nodes[i].children;
    BlockBoxWords(nodes, styles, i, kids, x, y, width);
    Ok(Box(i, x, y, width, TotalHeight(kids), kids, []))
  }

  /** The inline-mode branch of `layout()` (browser.py:247-251): the words
      are set from a fresh cursor, the last line is flushed, and the height
      is where the cursor ends. */
  function InlineModeLayout(nodes: seq<Node>, styles: seq<StyleMap>, m: Measure, i: nat,
                            x: real, y: real, width: real): (r: Result<Box, StyleError>)
    requires WellFormed(nodes) && |styles| == |nodes| && i < |nodes|
    ensures r.Ok? <==> FontsResolve(nodes, styles, i)
    ensures r.Ok? ==> LaysOut(nodes, styles, i, x, y, width, r.value) && r.value.children == []
  {
    var st :- Recurse(nodes, styles, m, i, Start, x, y, width);
    FlushKeepsWords(st, m, x, y);
    var done := Flush(st, m, x, y);
    InlineBoxWords(nodes, styles, i, st, done, x, y, width);
    Ok(Box(i, x, y, width, done.cursorY, [], done.out))
  }

  /** A block-mode box paints its children's words, which are those of
      the element's subtree. */
  lemma BlockBoxWords(nodes: seq<Node>, styles: seq<StyleMap>, i: nat, kids: seq<Box>,
                      x: real, y: real, width: real)
    requires WellFormed(nodes) && |styles| == |nodes| && i < |nodes| && nodes[i].Element?
    requires Placed(kids, nodes[i].children, x, width, |nodes|)
    requires Texts(PaintAll(kids, styles)) == KidsSubtreeWords(nodes, i, 0)
    ensures Within(Box(i, x, y, width, TotalHeight(kids), kids, []), |styles|)
    ensures Texts(Paint(Box(i, x, y, width, TotalHeight(kids), kids, []), styles)) == SubtreeWords(nodes, i)
  {
    var b := Box(i, x, y, width, TotalHeight(kids), kids, []);
    PaintTexts(b, styles);
    assert Texts(b.texts) == [];
  }

  /** An inline-mode box paints the words its flushed lines drew. */
  lemma InlineBoxWords(nodes: seq<Node>, styles: seq<StyleMap>, i: nat, st: LineState, done: LineState,
                       x: real, y: real, width: real)
    requires WellFormed(nodes) && |styles| == |nodes| && i < |nodes|
    requires Emitted(st) == Emitted(Start) + SubtreeWords(nodes, i) && Texts(done.out) == Emitted(st)
    ensures Texts(Paint(Box(i, x, y, width, done.cursorY, [], done.out), styles)) == SubtreeWords(nodes, i)
  {
    var b := Box(i, x, y, width, done.cursorY, [], done.out);
    PaintTexts(b, styles);
    assert PaintAll([], styles) == [];
    assert Emitted(Start) == [];
  }

  /** The child boxes from child k on, the first at `y` (the loops of
      browser.py:237-244). */
  function LayoutKids(nodes: seq<Node>, styles: seq<StyleMap>, m: Measure, i: nat, k: nat,
                      x: real, y: real, width: real): (r: Result<seq<Box>, StyleError>)
    requires WellFormed(nodes) && |styles| == |nodes| && i < |nodes| && k <= |nodes[i].children|
    ensures r.Ok? <==> KidsFontsResolve(nodes, styles, i, k)
    ensures r.Ok? ==> Placed(r.value, nodes[i].children[k..], x, width, |nodes|)
    ensures r.Ok? ==> Stacked(r.value, y) && TotalHeight(r.value) >= 0.0
    ensures r.Ok? ==> TextCountAll(r.value) == KidsWords(nodes, i, k)
    ensures r.Ok? ==> Texts(PaintAll(r.value, styles)) == KidsSubtreeWords(nodes, i, k)
    decreases |nodes| - i, |nodes[i].children| - k
  {
    if k == |nodes[i].children| then Ok([])
    else
      assert NodeOk(nodes, i);
      var b :- LayoutBlock(nodes, styles, m, nodes[i].children[k], x, y, width);
      var rest :- LayoutKids(nodes, styles, m, i, k + 1, x, y + b.height, width);
      StackCons(b, rest, y);
      TotalHeightCons(b, rest);
      assert nodes[i].children[k..][1..] == nodes[i].children[k + 1..];
      PlacedCons(b, rest, nodes[i].children[k..], x, width, |nodes|);
      PaintAllTexts(b, rest, styles);
      Ok([b] + rest)
  }

  /** The source's form of the stacking: a box after the first starts at
      `previous.y + previous.height` (browser.py:229-231). */
  lemma StackedFollowsPrevious(bs: seq<Box>, y: real, l: nat)
    requires Stacked(bs, y) && 0 < l < |bs|
    ensures bs[l].y == bs[l - 1].y + bs[l - 1].height
  {
    TotalHeightSnoc(bs[..l - 1], bs[l - 1]);
    assert bs[..l] == bs[..l - 1] + [bs[l - 1]];
  }

  lemma {:induction false} TotalHeightSnoc(bs: seq<Box>, b: Box)
    ensures TotalHeight(bs + [b]) == TotalHeight(bs) + b.height
  {
    if bs == [] {
      assert [] + [b] == [b];
      assert [b][1..] == [];
    } else {
      assert (bs + [b])[1..] == bs[1..] + [b];
      TotalHeightSnoc(bs[1..], b);
    }
  }

  lemma {:induction false} TotalHeightNonNegative(bs: seq<Box>)
    requires forall l :: 0 <= l < |bs| ==> bs[l].height >= 0.0
    ensures TotalHeight(bs) >= 0.0
  {
    if bs != [] {
      TotalHeightNonNegative(bs[1..]);
    }
  }

  /** Stacked boxes of non-negative height never overlap: each ends at or
      above the top of every later one, and the last ends at `y` plus the
      total height. */
  lemma NoOverlap(bs: seq<Box>, y: real, l: nat, l': nat)
    requires Stacked(bs, y) && forall k :: 0 <= k < |bs| ==> bs[k].height >= 0.0
    requires l < l' < |bs|
    ensures bs[l].y + bs[l].height <= bs[l'].y
  {
    var mid := bs[l + 1..l'];
    assert bs[..l'] == bs[..l] + [bs[l]] + mid;
    TotalHeightSnoc(bs[..l], bs[l]);
    TotalHeightAppend(bs[..l] + [bs[l]], mid);
    TotalHeightNonNegative(mid);
  }

  lemma StackedEnd(bs: seq<Box>, y: real)
    requires Stacked(bs, y) && bs != []
    ensures bs[|bs| - 1].y + bs[|bs| - 1].height == y + TotalHeight(bs)
  {
    var n := |bs| - 1;
    assert bs == bs[..n] + [bs[n]];
    TotalHeightSnoc(bs[..n], bs[n]);
  }

  lemma {:induction false} TotalHeightAppend(a: seq<Box>, b: seq<Box>)
    ensures TotalHeight(a + b) == TotalHeight(a) + TotalHeight(b)
  {
    if a == [] {
      assert a + b == b;
    } else {
      assert (a + b)[1..] == a[1..] + b;
      TotalHeightAppend(a[1..], b);
    }
  }

  // ---------------------------------------------------------------------
  // `DocumentLayout`

  /** A `DocumentLayout` after `layout()`. */
  datatype Document = Document(child: Box, x: real, y: real, width: real, height: real)

  /** `DocumentLayout(root).layout()` (browser.py:178-185): one block box
      inset by the page margins, and a height that adds the top and bottom
      margins to the box's. */
  function LayoutDocument(nodes: seq<Node>, styles: seq<StyleMap>, m: Measure, root: nat): (r: Result<Document, StyleError>)
    requires WellFormed(nodes) && |styles| == |nodes| && root < |nodes|
    ensures r.Ok? <==> FontsResolve(nodes, styles, root)
    ensures r.Ok? ==>
      && r.value.x == HStep && r.value.y == VStep && r.value.width == Width - 2.0 * HStep
      && r.value.child.node == root && r.value.child.x == r.value.x && r.value.child.y == r.value.y
      && r.value.child.width == r.value.width
      && r.value.height == r.value.child.height + 2.0 * VStep && r.value.height >= 2.0 * VStep
      && Within(r.value.child, |nodes|)
      && TextCount(r.value.child) == TotalWords(nodes, root)
  {
    var width := Width - 2.0 * HStep;
    var child :- LayoutBlock(nodes, styles, m, root, HStep, VStep, width);
    Ok(Document(child, HStep, VStep, width, child.height + 2.0 * VStep))
  }

  // ---------------------------------------------------------------------
  // `paint`

  /** `node.style.get("background-color", "transparent")`, when it is not
      `transparent`. */
  function Background(style: StyleMap): Option<string>
  {
    var c := if "background-color" in style then style["background-color"] else "transparent";
    if c != "transparent" then Some(c) else None
  }

  /** The rectangle `paint` draws under a box, if any. */
  function Rect(b: Box, style: StyleMap): seq<Cmd>
  {
    match Background(style)
    case Some(c) => [DrawRect(b.x, b.y, b.x + b.width, b.y + b.height, c)]
    case None => []
  }

  /** `BlockLayout.paint` (browser.py:215-225): the background rectangle,
      then the children's commands in order, then the box's own words. */
  function Paint(b: Box, styles: seq<StyleMap>): seq<Cmd>
    requires Within(b, |styles|)
    decreases b
  {
    Rect(b, styles[b.node]) + PaintAll(b.children, styles) + b.texts
  }

  function PaintAll(bs: seq<Box>, styles: seq<StyleMap>): seq<Cmd>
    requires forall k :: 0 <= k < |bs| ==> Within(bs[k], |styles|)
    decreases bs
  {
    if bs == [] then [] else Paint(bs[0], styles) + PaintAll(bs[1..], styles)
  }

  /** The boxes of the tree that draw a background. */
  function RectCount(b: Box, styles: seq<StyleMap>): nat
    requires Within(b, |styles|)
    decreases b
  {
    |Rect(b, styles[b.node])| + RectCountAll(b.children, styles)
  }

  function RectCountAll(bs: seq<Box>, styles: seq<StyleMap>): nat
    requires forall k :: 0 <= k < |bs| ==> Within(bs[k], |styles|)
    decreases bs
  {
    if bs == [] then 0 else RectCount(bs[0], styles) + RectCountAll(bs[1..], styles)
  }

  /** The words a box paints: its children's, then its own; the
      background draws none. */
  lemma PaintTexts(b: Box, styles: seq<StyleMap>)
    requires Within(b, |styles|)
    ensures Texts(Paint(b, styles)) == Texts(PaintAll(b.children, styles)) + Texts(b.texts)
  {
    var rect := Rect(b, styles[b.node]);
    var kids := PaintAll(b.children, styles);
    assert Paint(b, styles) == rect + kids + b.texts;
    RectDrawsNoWords(b, styles[b.node]);
    TextsAppend(rect, kids);
    assert Texts(rect + kids) == Texts(kids);
    TextsAppend(rect + kids, b.texts);
  }

  lemma RectDrawsNoWords(b: Box, style: StyleMap)
    ensures Texts(Rect(b, style)) == []
  {
    var rect := Rect(b, style);
    if rect != [] {
      assert rect[1..] == [];
    }
  }

  lemma PaintAllTexts(b: Box, rest: seq<Box>, styles: seq<StyleMap>)
    requires Within(b, |styles|) && forall k :: 0 <= k < |rest| ==> Within(rest[k], |styles|)
    ensures Texts(PaintAll([b] + rest, styles)) == Texts(Paint(b, styles)) + Texts(PaintAll(rest, styles))
  {
    assert ([b] + rest)[1..] == rest;
    TextsAppend(Paint(b, styles), PaintAll(rest, styles));
  }

  /** Painting emits one command per word the boxes hold and one per box
      with a background, nothing else. */
  lemma {:induction false} PaintLength(b: Box, styles: seq<StyleMap>)
    requires Within(b, |styles|)
    ensures |Paint(b, styles)| == RectCount(b, styles) + TextCount(b)
    decreases b
  {
    PaintAllLength(b.children, styles);
  }

  lemma {:induction false} PaintAllLength(bs: seq<Box>, styles: seq<StyleMap>)
    requires forall k :: 0 <= k < |bs| ==> Within(bs[k], |styles|)
    ensures |PaintAll(bs, styles)| == RectCountAll(bs, styles) + TextCountAll(bs)
    decreases bs
  {
    if bs != [] {
      PaintLength(bs[0], styles);
      PaintAllLength(bs[1..], styles);
    }
  }

  /** A box has a background exactly when its style names a
      `background-color` other than `transparent`. */
  lemma BackgroundIff(style: StyleMap)
    ensures Background(style).Some? <==>
      "background-color" in style && style["background-color"] != "transparent"
    ensures Background(style).Some? ==> Background(style).value == style["background-color"]
  {
  }

  /** The rectangle under a box, by whether its style has a background. */
  lemma RectOf(b: Box, style: StyleMap)
    ensures Background(style).Some? ==>
      Rect(b, style) == [DrawRect(b.x, b.y, b.x + b.width, b.y + b.height, Background(style).value)]
    ensures Background(style).None? ==> Rect(b, style) == []
  {
  }

  lemma PaintParts(b: Box, styles: seq<StyleMap>)
    requires Within(b, |styles|)
    ensures Paint(b, styles) == Rect(b, styles[b.node]) + PaintAll(b.children, styles) + b.texts
  {
  }

  lemma FirstOfJoin(a: seq<Cmd>, c: seq<Cmd>, t: seq<Cmd>)
    requires a != []
    ensures (a + c + t)[0] == a[0]
  {
  }

  /** A box's commands open with one rectangle covering the box when it has
      a background; otherwise they are its children's and then its own. */
  lemma PaintStartsWithBackground(b: Box, styles: seq<StyleMap>)
    requires Within(b, |styles|)
    ensures Background(styles[b.node]).Some? ==>
      Paint(b, styles)[0] == DrawRect(b.x, b.y, b.x + b.width, b.y + b.height, Background(styles[b.node]).value)
    ensures Background(styles[b.node]).None? ==>
      Paint(b, styles) == PaintAll(b.children, styles) + b.texts
  {
    var rect := Rect(b, styles[b.node]);
    var kids := PaintAll(b.children, styles);
    PaintParts(b, styles);
    RectOf(b, styles[b.node]);
    if rect != [] {
      FirstOfJoin(rect, kids, b.texts);
    } else {
      assert rect + kids == kids;
    }
  }

  /** The box's own words close its commands, after everything its
      children paint. */
  lemma PaintEndsWithOwnWords(b: Box, styles: seq<StyleMap>)
    requires Within(b, |styles|)
    ensures |b.texts| <= |Paint(b, styles)|
    ensures Paint(b, styles)[|Paint(b, styles)| - |b.texts|..] == b.texts
    ensures Paint(b, styles)[..|Paint(b, styles)| - |b.texts|]
         == Rect(b, styles[b.node]) + PaintAll(b.children, styles)
  {
    var front := Rect(b, styles[b.node]) + PaintAll(b.children, styles);
    assert Paint(b, styles) == front + b.texts;
  }

  /** Every word of the document is painted exactly once: the display list
      holds one command per word of the root's subtree, plus one rectangle
      per box with a background. */
  lemma EveryWordPaintedOnce(nodes: seq<Node>, styles: seq<StyleMap>, m: Measure, root: nat)
    requires WellFormed(nodes) && |styles| == |nodes| && root < |nodes|
    requires LayoutDocument(nodes, styles, m, root).Ok?
    ensures var d := LayoutDocument(nodes, styles, m, root).value;
      |Paint(d.child, styles)| == TotalWords(nodes, root) + RectCount(d.child, styles)
    ensures Texts(Paint(LayoutDocument(nodes, styles, m, root).value.child, styles)) == SubtreeWords(nodes, root)
  {
    PaintLength(LayoutDocument(nodes, styles, m, root).value.child, styles);
  }
}

=== FILE: lines.dfy ===
/** Line filling in inline mode: `BlockLayout.text` and `BlockLayout.flush`
    of browser.py (browser.py:262-295). Words are placed left to right on a
    pending line; `flush` turns the pending line into `DrawText` commands on
    a shared baseline and moves the cursor down. */
module Lines {
  import opened Wrappers
  import opened Chars
  import opened Display
  import opened Dom

  /** A pending word: `(cursor_x, word, font, color)`, together with the
      metrics of its font, which `flush` reads from the same font object. */
  datatype Item = Item(relX: real, word: string, font: Font, color: string, metrics: Metrics)

  /** The inline-mode state of a block: `cursor_x`, `cursor_y`, `line` and
      the block's own `display_list`. */
  datatype LineState = LineState(cursorX: real, cursorY: real, line: seq<Item>, out: seq<Cmd>)

  /** The style key whose absence made `tok.parent.style[key]` raise. */
  datatype StyleError = MissingStyle(key: string)

  const Start := LineState(0.0, 0.0, [], [])

  /** The words of a pending line, in order. */
  function LineWords(line: seq<Item>): (r: seq<string>)
    ensures |r| == |line|
    ensures forall k :: 0 <= k < |line| ==> r[k] == line[k].word
  {
    if line == [] then [] else [line[0].word] + LineWords(line[1..])
  }

  /** Every word set so far, in reading order: those already drawn, then
      those waiting on the line. */
  function Emitted(st: LineState): seq<string>
  {
    Texts(st.out) + LineWords(st.line)
  }

  /** Two steps that each add words add both runs, in order. */
  lemma EmittedChain(st: LineState, st': LineState, st'': LineState, a: seq<string>, b: seq<string>)
    requires Emitted(st') == Emitted(st) + a && Emitted(st'') == Emitted(st') + b
    ensures Emitted(st'') == Emitted(st) + (a + b)
  {
  }

  // ---------------------------------------------------------------------
  // `str.split()` with no argument

  predicate IsWord(w: string) {
    0 < |w| && forall k :: 0 <= k < |w| ==> !IsSpace(w[k])
  }

  function SpaceRun(s: string): (r: nat)
    ensures r <= |s|
    ensures forall k :: 0 <= k < r ==> IsSpace(s[k])
    ensures r == |s| || !IsSpace(s[r])
  {
    if s != [] && IsSpace(s[0]) then 1 + SpaceRun(s[1..]) else 0
  }

  function WordRun(s: string): (r: nat)
    ensures r <= |s|
    ensures forall k :: 0 <= k < r ==> !IsSpace(s[k])
    ensures r == |s| || IsSpace(s[r])
  {
    if s != [] && !IsSpace(s[0]) then 1 + WordRun(s[1..]) else 0
  }

  /** `text.split()`: the maximal runs of non-space characters, in order. */
  function Words(s: string): (r: seq<string>)
    ensures forall k :: 0 <= k < |r| ==> IsWord(r[k])
    decreases |s|
  {
    var a := SpaceRun(s);
    if a == |s| then []
    else
      var t := s[a..];
      var b := WordRun(t);
      [t[..b]] + Words(t[b..])
  }

  /** Words joined by single spaces. */
  function Join(ws: seq<string>): string
  {
    if ws == [] then ""
    else if |ws| == 1 then ws[0]
    else ws[0] + " " + Join(ws[1..])
  }

  lemma {:induction false} SpaceRunFromWord(s: string)
    requires s != [] && !IsSpace(s[0])
    ensures SpaceRun(s) == 0
  {
  }

  lemma {:induction false} WordRunOfWord(w: string, t: string)
    requires IsWord(w) && (t == [] || IsSpace(t[0]))
    ensures WordRun(w + t) == |w|
    decreases |w|
  {
    assert (w + t)[1..] == w[1..] + t;
    if |w| > 1 {
      WordRunOfWord(w[1..], t);
    } else {
      assert w[1..] + t == t;
    }
  }

  /** Leading white space does not change the words. */
  lemma {:induction false} WordsAfterSpace(t: string)
    ensures Words(" " + t) == Words(t)
  {
    var s := " " + t;
    assert s[1..] == t;
    assert SpaceRun(s) == 1 + SpaceRun(t);
    assert s[SpaceRun(s)..] == t[SpaceRun(t)..];
  }

  /** A word alone is one word. */
  lemma WordsOfWord(w: string)
    requires IsWord(w)
    ensures Words(w) == [w]
  {
    SpaceRunFromWord(w);
    WordRunOfWord(w, []);
    assert w + [] == w;
    assert w[0..] == w && w[..|w|] == w && w[|w|..] == [];
  }

  /** `split` undoes joining with single spaces. */
  lemma {:induction false} WordsOfJoin(ws: seq<string>)
    requires forall k :: 0 <= k < |ws| ==> IsWord(ws[k])
    ensures Words(Join(ws)) == ws
    decreases |ws|
  {
    if ws == [] {
    } else if |ws| == 1 {
      WordsOfWord(ws[0]);
    } else {
      var rest := Join(ws[1..]);
      assert Join(ws) == ws[0] + " " + rest;
      WordThenSpace(ws[0], rest);
      assert forall k :: 0 <= k < |ws[1..]| ==> ws[1..][k] == ws[k + 1];
      WordsOfJoin(ws[1..]);
      assert [ws[0]] + ws[1..] == ws;
    }
  }

  /** A word and a space split off the front of any text. */
  lemma WordThenSpace(w: string, rest: string)
    requires IsWord(w)
    ensures Words(w + " " + rest) == [w] + Words(rest)
  {
    var s := w + " " + rest;
    assert s == w + (" " + rest);
    SpaceRunFromWord(s);
    assert s[0..] == s;
    WordRunOfWord(w, " " + rest);
    assert s[..|w|] == w;
    assert s[|w|..] == " " + rest;
    WordsAfterSpace(rest);
  }

  // ---------------------------------------------------------------------
  // fonts

  /** The style keys `text()` reads, in the order it reads them
      (browser.py:263-266, 272). */
  const FontKeys: seq<string> := ["font-weight", "font-style", "color", "font-family", "font-size"]

  /** `family.split(",")[0]`. */
  function BeforeComma(s: string): (r: string)
    ensures r <= s && ',' !in r
    ensures |r| == |s| || s[|r|] == ','
  {
    if s == [] || s[0] == ',' then []
    else [s[0]] + BeforeComma(s[1..])
  }

  /** The first of `keys` that `style` lacks. */
  function FirstMissing(keys: seq<string>, style: StyleMap): (r: Option<nat>)
    ensures r.None? <==> forall k :: 0 <= k < |keys| ==> keys[k] in style
    ensures r.Some? ==>
      && r.value < |keys| && keys[r.value] !in style
      && forall l :: 0 <= l < r.value ==> keys[l] in style
  {
    if keys == [] then None
    else if keys[0] !in style then Some(0)
    else match FirstMissing(keys[1..], style)
      case None => None
      case Some(k) => Some(k + 1)
  }

  /** The font and colour of the words of a Text node whose parent has style
      `style`, or the first key that is missing (browser.py:262-273). */
  function FontFor(style: StyleMap): (r: Result<(Font, string), StyleError>)
    ensures r.Ok? <==> FirstMissing(FontKeys, style).None?
    ensures r.Err? ==> r.error.key == FontKeys[FirstMissing(FontKeys, style).value]
    ensures r.Ok? ==>
      && "font-weight" in style && "font-style" in style && "color" in style
      && "font-family" in style && "font-size" in style
    ensures r.Ok? ==>
      var (font, color) := r.value;
      && color == style["color"] && font.size == style["font-size"]
      && (font.weight == if style["font-weight"] in ["normal", "bold"] then style["font-weight"] else "normal")
      && (font.slant == if style["font-style"] == "normal" then "roman" else style["font-style"])
      && font.family == BeforeComma(style["font-family"])
  {
    FontKeysMissing(style);
    if "font-weight" !in style then Err(MissingStyle("font-weight"))
    else if "font-style" !in style then Err(MissingStyle("font-style"))
    else if "color" !in style then Err(MissingStyle("color"))
    else if "font-family" !in style then Err(MissingStyle("font-family"))
    else if "font-size" !in style then Err(MissingStyle("font-size"))
    else
      var weight := style["font-weight"];
      var slant := style["font-style"];
      var family := BeforeComma(style["font-family"]);
      var slant' := if slant == "normal" then "roman" else slant;
      var weight' := if weight !in ["normal", "bold"] then "normal" else weight;
      Ok((Font(style["font-size"], weight', slant', family), style["color"]))
  }

  lemma FontKeysMissing(style: StyleMap)
    ensures FirstMissing(FontKeys, style) ==
      if "font-weight" !in style then Some(0)
      else if "font-style" !in style then Some(1)
      else if "color" !in style then Some(2)
      else if "font-family" !in style then Some(3)
      else if "font-size" !in style then Some(4)
      else None
  {
    var k1, k2, k3, k4 := FontKeys[1..], FontKeys[2..], FontKeys[3..], FontKeys[4..];
    assert FontKeys[4..][1..] == [];
    assert FirstMissing(k4, style) == if "font-size" !in style then Some(0) else None;
    assert k3[1..] == k4 && k3[0] == "font-family";
    assert FirstMissing(k3, style) ==
      if "font-family" !in style then Some(0) else if "font-size" !in style then Some(1) else None;
    assert k2[1..] == k3 && k2[0] == "color";
    assert FirstMissing(k2, style) ==
      if "color" !in style then Some(0) else if "font-family" !in style then Some(1)
      else if "font-size" !in style then Some(2) else None;
    assert k1[1..] == k2 && k1[0] == "font-style";
    assert FirstMissing(k1, style) ==
      if "font-style" !in style then Some(0) else if "color" !in style then Some(1)
      else if "font-family" !in style then Some(2) else if "font-size" !in style then Some(3) else None;
    assert FontKeys[1..] == k1 && FontKeys[0] == "font-weight";
  }

  /** Tk only ever sees the weights `normal` and `bold`. */
  lemma FontWeightIsTkWeight(style: StyleMap)
    requires FontFor(style).Ok?
    ensures FontFor(style).value.0.weight in ["normal", "bold"]
    ensures FontFor(style).value.0.slant != "normal"
  {
  }

  // ---------------------------------------------------------------------
  // `flush`

  /** The greatest of a non-empty list of metrics, as `max` picks it. */
  function MaxOf(vals: seq<real>): (r: real)
    requires |vals| > 0
    ensures forall k :: 0 <= k < |vals| ==> vals[k] <= r
  {
    if |vals| == 1 then vals[0]
    else
      var rest := MaxOf(vals[1..]);
      assert forall k :: 1 <= k < |vals| ==> vals[k] == vals[1..][k - 1];
      if vals[0] >= rest then vals[0] else rest
  }

  /** The maximum is one of the values, so it is attained by some word. */
  lemma {:induction false} MaxOfIsOneOf(vals: seq<real>) returns (k: nat)
    requires |vals| > 0
    ensures k < |vals| && MaxOf(vals) == vals[k]
  {
    if |vals| == 1 {
      k := 0;
    } else {
      var j := MaxOfIsOneOf(vals[1..]);
      k := if vals[0] >= MaxOf(vals[1..]) then 0 else j + 1;
    }
  }

  function Ascents(line: seq<Item>): (r: seq<real>)
    ensures |r| == |line|
    ensures forall k :: 0 <= k < |line| ==> r[k] == line[k].metrics.ascent
  {
    if line == [] then [] else [line[0].metrics.ascent] + Ascents(line[1..])
  }

  function Descents(line: seq<Item>): (r: seq<real>)
    ensures |r| == |line|
    ensures forall k :: 0 <= k < |line| ==> r[k] == line[k].metrics.descent
  {
    if line == [] then [] else [line[0].metrics.descent] + Descents(line[1..])
  }

  /** The commands of the pending line, each word placed so that its ascent
      ends on the baseline. */
  function LineTexts(m: Measure, line: seq<Item>, x: real, y: real, baseline: real): (r: seq<Cmd>)
    ensures |r| == |line|
    ensures forall k :: 0 <= k < |line| ==>
      r[k] == MakeText(m, line[k].relX + x, y + baseline - line[k].metrics.ascent,
                       line[k].word, line[k].font, line[k].color)
  {
    if line == [] then []
    else
      [MakeText(m, line[0].relX + x, y + baseline - line[0].metrics.ascent,
                line[0].word, line[0].font, line[0].color)]
      + LineTexts(m, line[1..], x, y, baseline)
  }

  /** `flush()` of a block at (x, y) (browser.py:282-295). */
  function Flush(st: LineState, m: Measure, x: real, y: real): (r: LineState)
    ensures st.line == [] ==> r == st
    ensures st.line != [] ==>
      && r.line == [] && r.cursorX == 0.0
      && |r.out| == |st.out| + |st.line| && r.out[..|st.out|] == st.out
      && r.cursorY == st.cursorY + 1.25 * MaxOf(Ascents(st.line)) + 1.25 * MaxOf(Descents(st.line))
  {
    if st.line == [] then st
    else
      var baseline := st.cursorY + 1.25 * MaxOf(Ascents(st.line));
      var texts := LineTexts(m, st.line, x, y, baseline);
      var r := LineState(0.0, baseline + 1.25 * MaxOf(Descents(st.line)), [], st.out + texts);
      assert r.out[..|st.out|] == st.out;
      r
  }

  /** What a flush emits: one `DrawText` per pending word, in order, at the
      word's recorded x plus the block's x; all words share one baseline,
      1.25 times the largest ascent below the old cursor, and every word's
      top lies between the old and the new cursor. */
  lemma FlushPlacesWords(st: LineState, m: Measure, x: real, y: real)
    requires st.line != []
    ensures var r := Flush(st, m, x, y);
      var added := r.out[|st.out|..];
      var baseline := st.cursorY + 1.25 * MaxOf(Ascents(st.line));
      && r.cursorY >= baseline >= st.cursorY
      && |added| == |st.line|
      && forall k :: 0 <= k < |added| ==>
           && added[k].DrawText? && added[k].left == st.line[k].relX + x && added[k].text == st.line[k].word
           && added[k].font == st.line[k].font && added[k].color == st.line[k].color
           && added[k].top + st.line[k].metrics.ascent == y + baseline
           && y + st.cursorY <= added[k].top <= y + r.cursorY
  {
    var maxA := MaxOf(Ascents(st.line));
    var maxD := MaxOf(Descents(st.line));
    var baseline := st.cursorY + 1.25 * maxA;
    FlushAdded(st, m, x, y);
    assert Ascents(st.line)[0] >= 0.0 && Descents(st.line)[0] >= 0.0;
    assert maxA >= 0.0 && maxD >= 0.0;
    LineTextsPlaced(m, st.line, x, y, baseline, 1.25 * maxA);
  }

  /** The commands a flush appends are the line's commands on the baseline. */
  lemma FlushAdded(st: LineState, m: Measure, x: real, y: real)
    requires st.line != []
    ensures Flush(st, m, x, y).out[|st.out|..]
         == LineTexts(m, st.line, x, y, st.cursorY + 1.25 * MaxOf(Ascents(st.line)))
  {
    var texts := LineTexts(m, st.line, x, y, st.cursorY + 1.25 * MaxOf(Ascents(st.line)));
    FlushOut(st, m, x, y);
    assert (st.out + texts)[|st.out|..] == texts;
  }

  lemma FlushOut(st: LineState, m: Measure, x: real, y: real)
    requires st.line != []
    ensures Flush(st, m, x, y).out == st.out + LineTexts(m, st.line, x, y, st.cursorY + 1.25 * MaxOf(Ascents(st.line)))
  {
  }

  /** Each command of a line carries its word, font, colour and x, and has
      its ascent end on the baseline; when no ascent exceeds `lift`, every
      top lies within `lift` above the baseline. */
  lemma LineTextsPlaced(m: Measure, line: seq<Item>, x: real, y: real, baseline: real, lift: real)
    requires forall k :: 0 <= k < |line| ==> line[k].metrics.ascent <= lift
    ensures var texts := LineTexts(m, line, x, y, baseline);
      forall k :: 0 <= k < |texts| ==>
        && texts[k].DrawText? && texts[k].left == line[k].relX + x && texts[k].text == line[k].word
        && texts[k].font == line[k].font && texts[k].color == line[k].color
        && texts[k].top + line[k].metrics.ascent == y + baseline
        && y + baseline - lift <= texts[k].top <= y + baseline
  {
  }

  /** A flush moves the pending words into the output, one command each,
      and never moves the cursor up. */
  lemma FlushKeepsWords(st: LineState, m: Measure, x: real, y: real)
    ensures |Flush(st, m, x, y).out| == |st.out| + |st.line|
    ensures Flush(st, m, x, y).line == [] && Flush(st, m, x, y).cursorY >= st.cursorY
    ensures st.out <= Flush(st, m, x, y).out
    ensures Texts(Flush(st, m, x, y).out) == Emitted(st)
    ensures Emitted(Flush(st, m, x, y)) == Emitted(st)
  {
    if st.line != [] {
      FlushPlacesWords(st, m, x, y);
      var baseline := st.cursorY + 1.25 * MaxOf(Ascents(st.line));
      FlushOut(st, m, x, y);
      TextsAppend(st.out, LineTexts(m, st.line, x, y, baseline));
      LineTextsWords(m, st.line, x, y, baseline);
    }
  }

  /** The commands of a line draw the line's words, in order. */
  lemma {:induction false} LineTextsWords(m: Measure, line: seq<Item>, x: real, y: real, baseline: real)
    ensures Texts(LineTexts(m, line, x, y, baseline)) == LineWords(line)
  {
    if line != [] {
      LineTextsWords(m, line[1..], x, y, baseline);
    }
  }

  lemma LineWordsSnoc(line: seq<Item>, item: Item)
    ensures LineWords(line + [item]) == LineWords(line) + [item.word]
  {
  }

  /** Flushing twice flushes once. */
  lemma FlushIdempotent(st: LineState, m: Measure, x: real, y: real)
    ensures Flush(Flush(st, m, x, y), m, x, y) == Flush(st, m, x, y)
  {
  }

  // ---------------------------------------------------------------------
  // `text`

  /** One turn of the word loop of `text()` (browser.py:275-280): the word
      is recorded at the cursor, the cursor advances by its width and a
      space, and the test `cursor_x + w > width` — made after the advance —
      flushes the line with the word on it. */
  function PlaceWord(st: LineState, word: string, font: Font, color: string,
                     m: Measure, x: real, y: real, width: real): (r: LineState)
  {
    var line := st.line + [Item(st.cursorX, word, font, color, m.metrics(font))];
    var w := m.width(font, word);
    var cx := st.cursorX + w + m.width(font, " ");
    var st' := LineState(cx, st.cursorY, line, st.out);
    if cx + w > width then Flush(st', m, x, y) else st'
  }

  /** A placed word is kept: either it waits on the line at the cursor
      where it was placed, or the line it ended was flushed with it as the
      last command. No word is moved to the next line. */
  lemma PlaceWordKeepsWord(st: LineState, word: string, font: Font, color: string,
                           m: Measure, x: real, y: real, width: real)
    ensures var r := PlaceWord(st, word, font, color, m, x, y, width);
      var w := m.width(font, word);
      var advanced := st.cursorX + w + m.width(font, " ");
      && st.out <= r.out && r.cursorY >= st.cursorY
      && |r.out| + |r.line| == |st.out| + |st.line| + 1
      && Emitted(r) == Emitted(st) + [word]
      && (advanced + w <= width ==>
            r.line == st.line + [Item(st.cursorX, word, font, color, m.metrics(font))] && r.out == st.out && r.cursorX == advanced)
      && (advanced + w > width ==>
            && r.line == [] && r.cursorX == 0.0 && |r.out| == |st.out| + |st.line| + 1
            && r.out[|r.out| - 1].DrawText? && r.out[|r.out| - 1].text == word
            && r.out[|r.out| - 1].left == st.cursorX + x)
  {
    var r := PlaceWord(st, word, font, color, m, x, y, width);
    var line := st.line + [Item(st.cursorX, word, font, color, m.metrics(font))];
    var w := m.width(font, word);
    var advanced := st.cursorX + w + m.width(font, " ");
    PlaceWordEmits(st, word, font, color, m, x, y, width);
    if advanced + w > width {
      FlushPlacesWords(LineState(advanced, st.cursorY, line, st.out), m, x, y);
      assert |r.out| - 1 == |st.out| + |line| - 1;
      assert r.out[..|st.out|] == st.out;
    }
  }

  lemma PlaceWordEmits(st: LineState, word: string, font: Font, color: string,
                       m: Measure, x: real, y: real, width: real)
    ensures Emitted(PlaceWord(st, word, font, color, m, x, y, width)) == Emitted(st) + [word]
  {
    var item := Item(st.cursorX, word, font, color, m.metrics(font));
    var w := m.width(font, word);
    var advanced := st.cursorX + w + m.width(font, " ");
    var st' := LineState(advanced, st.cursorY, st.line + [item], st.out);
    LineWordsSnoc(st.line, item);
    assert Emitted(st') == Emitted(st) + [word];
    FlushKeepsWords(st', m, x, y);
  }

  /** The whole word loop of `text()`. */
  function PlaceWords(st: LineState, words: seq<string>, font: Font, color: string,
                      m: Measure, x: real, y: real, width: real): (r: LineState)
    ensures st.out <= r.out && r.cursorY >= st.cursorY
    ensures |r.out| + |r.line| == |st.out| + |st.line| + |words|
    ensures Emitted(r) == Emitted(st) + words
    decreases |words|
  {
    if words == [] then st
    else
      var next := PlaceWord(st, words[0], font, color, m, x, y, width);
      PlaceWordKeepsWord(st, words[0], font, color, m, x, y, width);
      var r := PlaceWords(next, words[1..], font, color, m, x, y, width);
      EmittedChain(st, next, r, [words[0]], words[1..]);
      assert [words[0]] + words[1..] == words;
      r
  }

  /** `text(tok)` for a Text node with the given text whose parent's style
      is `style`: the font lookup raises before any word is placed. */
  function TextRun(st: LineState, text: string, style: StyleMap,
                   m: Measure, x: real, y: real, width: real): (r: Result<LineState, StyleError>)
    ensures r.Err? <==> FontFor(style).Err?
    ensures r.Ok? ==> st.out <= r.value.out && r.value.cursorY >= st.cursorY
    ensures r.Ok? ==> |r.value.out| + |r.value.line| == |st.out| + |st.line| + |Words(text)|
    ensures r.Ok? ==> Emitted(r.value) == Emitted(st) + Words(text)
  {
    var (font, color) :- FontFor(style);
    Ok(PlaceWords(st, Words(text), font, color, m, x, y, width))
  }
}

=== FILE: selectors.dfy ===
/** `TagSelector` and `DescendentSelector` of css.py, matched against nodes
    of the document arena. */
module Selectors {
  import opened Dom

  datatype Selector =
    | Tag(tag: string)
    | Descendant(ancestor: Selector, descendant: Selector)

  /** What a selector denotes: a tag selector holds of an Element with that
      tag; a descendant selector holds of a node its descendant part matches
      and of which some strict ancestor matches its ancestor part. */
  predicate Matches(sel: Selector, nodes: seq<Node>, j: nat)
    requires WellFormed(nodes) && j < |nodes|
    decreases sel
  {
    match sel
    case Tag(t) => nodes[j].Element? && nodes[j].tag == t
    case Descendant(a, d) =>
      var anc := Ancestors(nodes, j);
      Matches(d, nodes, j) && exists k :: 0 <= k < |anc| && Matches(a, nodes, anc[k])
  }

  /** `matches` as css.py runs it (css.py:18-19, 26-33): test the descendant
      part, then climb `node.parent` testing the ancestor part, starting
      from the parent, so the node itself is never tried as its own ancestor. */
  method MatchesNode(sel: Selector, nodes: seq<Node>, j: nat) returns (r: bool)
    requires WellFormed(nodes) && j < |nodes|
    ensures r == Matches(sel, nodes, j)
    decreases sel
  {
    match sel {
      case Tag(t) =>
        r := nodes[j].Element? && t == nodes[j].tag;
      case Descendant(a, d) =>
        var own := MatchesNode(d, nodes, j);
        if !own {
          return false;
        }
        ghost var anc := Ancestors(nodes, j);
        ghost var k: nat := 0;
        var node: nat := j;
        while nodes[node].parent.Some?
          invariant node < |nodes| && k <= |anc|
          invariant Ancestors(nodes, node) == anc[k..]
          invariant forall l :: 0 <= l < k ==> !Matches(a, nodes, anc[l])
          decreases node
        {
          var p := nodes[node].parent.value;
          var up := MatchesNode(a, nodes, p);
          if up {
            return true;
          }
          node := p;
          k := k + 1;
        }
        r := false;
    }
  }

  /** A parentless node (the root) never matches a descendant selector. */
  lemma RootNeverDescendant(sel: Selector, nodes: seq<Node>, j: nat)
    requires WellFormed(nodes) && j < |nodes| && nodes[j].parent.None?
    requires sel.Descendant?
    ensures !Matches(sel, nodes, j)
  {
  }
}

=== FILE: wrappers.dfy ===
/** Option and Result types shared by the whole model.
    `Result` is failure-compatible, so `:-` propagates an error. */
module Wrappers {

  datatype Option<+T> = None | Some(value: T)

  datatype Result<+T, +E> = Ok(value: T) | Err(error: E) {

    predicate IsFailure() {
      Err?
    }

    function PropagateFailure<U>(): Result<U, E>
      requires Err?
    {
      Err(error)
    }

    function Extract(): T
      requires Ok?
    {
      value
    }
  }
}
